=== FILE: README.md ===
# Model Meetup scene synchronisation in Dafny

Model Meetup is a multi-user 3D object viewer. Browser clients add, remove, move, rotate and
scale models in a shared scene. A Go relay server does three things:
- it gives every added model a handle of the form `"<index> - <geometry>"`;
- it remembers, per model, the last create, position, rotation and scale message;
- it broadcasts every message to all connected clients and replays the stored messages to a client that joins later.

Each client keeps a map from handle to scene object. Models loaded from JSON files appear
asynchronously. An update for a handle that is not in the map yet is retried on a 500 ms
timer, for as long as it takes.

The project models both sides as pure step functions over immutable maps and sequences and
proves properties of them.

| file | module | what it models |
|---|---|---|
| `common.dfy` | `Common` | `Option`, `Result`, substring search (`String.prototype.includes`), Go's `strconv.Itoa` on naturals |
| `messages.dfy` | `Messages` | the four-field `Message` record and the four-slot `Model` record (model.go) |
| `codec.dfy` | `Codec` | the JSON object form of a message; Go's `WriteJSON`/`ReadJSON` for it |
| `server.dfy` | `Server` | `GenerateNewModelHandle`, one iteration of `handleMessages`, and the replay of `handleConnections` (main.go) |
| `replay.dfy` | `ServerReplay` | the shape of the stored models and the order of the replay |
| `uniqueness.dfy` | `HandleUniqueness` | when the allocator's handles are unique, and two histories where they are not |
| `client.dfy` | `Client` | `receiveMessage`, `addModel`, the `loadModel` callback, `removeModel`, `moveModel`/`rotateModel`/`scaleModel` (modelMeetup.js) |
| `client_timers.dfy` | `ClientTimers` | what the retry timers do over one or many rounds |
| `client_order.dfy` | `ClientOrdering` | event orders: update before load, Remove during load, out-of-order updates |
| `requests.dfy` | `Requests` | the messages the Add, Remove and Update buttons send, and `sendMessage` |
| `relay.dfy` | `Relay` | server and clients together: what a client builds for a requested Add, and why live clients and late joiners see the same scene |

Asynchrony on the client is made explicit. `Scene` has three parts:
- `objects` is the map `allModels`;
- `retries` is the queue of pending `moveModel`/`rotateModel`/`scaleModel` timers;
- `loads` is the queue of JSON loads whose callback has not run.

Three event functions advance it:
- `Client.Fire(s, i)` is the i-th timer expiring;
- `Client.Tick(s)` is every pending timer expiring once, in the order the timers were set;
- `Client.LoadCompletes(s, i)` is the i-th loader callback running.

Every retry waits the same 500 ms, so the browser expires the timers in the order they were set: the event it produces is `Client.Fire(s, 0)`, and incoming messages and load callbacks may come between any two such events. `Client.Fire` accepts any index; each lemma fixes one order.

On the server, `Server.Step(s, msg)` returns the new state and the broadcast message. The
crash paths of `handleMessages` are excluded by the precondition `Server.CanStep`:
- a Move, Rotate or Scale whose handle is not stored dereferences a nil `*Model`;
- a Remove with an empty handle, when other models remain, indexes byte 0 of an empty string.

The replay of `handleConnections` takes the Go map's iteration order as a parameter.

### Behaviour of the code that a cleaner design would not have

The model follows the code, including these points:
- **A Remove does not cancel.** A Remove that arrives while a JSON model is loading finds nothing to remove. The load then stores the model anyway (`ClientOrdering.RemoveDoesNotCancelLoad`). Pending updates also stay queued through a Remove, and land on the next model stored under the same handle (`ClientOrdering.RetrySurvivesRemove`).
- **Waiting updates for one model are not kept in arrival order.** Each retry is an independent timer that requeues itself at the back. If the older move's timer expires once before the model has loaded, it is requeued behind the newer move, and after the load the older move is applied last and wins (`ClientOrdering.PendingMovesCanSwap`). Even with timers firing in order, a move that arrives after the load is applied at once and is then overwritten by an older pending move (`ClientOrdering.LateMoveOvertakesPending`).
- **An update for a handle that never appears is never dropped.** It is retried forever; nothing reports an unknown handle (`ClientOrdering.GhostMoveStaysPending`).
- **An Add for a handle that is already stored overwrites the stored object**, on the client (`Client.AddModel`) and on the server (`Server.Step`).
- **Late joiners do receive the scene history.** The server replays the stored messages of every model to a client that connects later. `Relay.LateJoinerSeesLiveScene` proves that such a client ends with the same scene as a client connected from the start, under three conditions: every model is a primitive, every transform message carries an array, and no live broadcast reaches the new client during its replay. The server registers the client (main.go:67) before the replay loop, so without the third condition live messages can interleave with the replay; the concurrency line under "## Left out" covers this.
- **Handles are unique only under two conditions.** The allocator's comments claim uniqueness, but Remove records only the first character of the handle as the freed index. Uniqueness holds when every Remove names a live model and no index reaches 10 (`HandleUniqueness.AddedHandleNeverLive`). Each condition is necessary:
  - two Removes of the same model free its index twice, so two later Adds get the same handle (`HandleUniqueness.DoubleRemoveReissuesHandle`);
  - the eleventh model gets index 10, removing it frees index 1, and the next Add reissues the handle of model 1 (`HandleUniqueness.TenthIndexCollides`).
- **Update is not guarded against the initial "Choose a model" selection** (Remove is). Once a property has been selected, pressing Update while the model list still shows the initial entry sends a transform for the handle "Choose a model", and the server dereferences a missing model (`Requests.UpdateWithoutSelectionStopsServer`). Until `onCurrentPropertyChange` has run (after a property change, a model change, or a received Remove), the Update handler stops at the undeclared `selectedProperty` and sends nothing (`Requests.UpdateRequest` with no property).

## Model

| member | source | states |
|---|---|---|
| `Common.NatToString` | main.go:51 | the decimal spelling `strconv.Itoa` gives: digits only, one character exactly for numbers below 10, no leading zero except for 0 |
| `Common.ParseNatToString` | main.go:51 | the decimal spelling reads back as the number it spells |
| `Common.NatToStringInjective` | main.go:51 | two different model counts give two different index prefixes |
| `Messages.Put` | model.go:12-14 | writing one slot of a stored model sets that slot and leaves the other three as they were |
| `Messages.NewModel` | main.go:138 | a freshly allocated model has all four slots equal to the zero message, which reads as empty |
| `Messages.SlotOfTag` | main.go:131-176 | tag 1 is stored in the create slot, 3 in position, 4 in rotation, 5 in scale, and no other tag is stored |
| `Messages.TagOfSlot` | main.go:131-176 | each slot's tag maps back to that slot |
| `Codec.Object` | public/scripts/modelMeetup.js:350-357 | the object has exactly the four message fields, each holding the value given for it |
| `Codec.Encode` | model.go:4-9 | a message is written as the four JSON fields named by the struct tags, with a nil array written as null |
| `Codec.DecodeFloats` | model.go:7 | an array decodes iff every element is a number or null; it keeps its length, and null elements become 0 |
| `Codec.Decode` | model.go:4-9 | decoding succeeds iff the tag is null or an integral number, the handle and text are null or strings, and the array is null or an array of numbers and nulls; on success handle and text are the JSON strings or "", the tag is the number or 0, and the array is the decoded array or nil when null or missing; a string or array tag is an error |
| `Codec.RoundTrip` | model.go:4-9 | every message decodes back to itself from its JSON form |
| `Server.GenerateNewModelHandle` | main.go:45-52 | with no freed index the handle is the decimal model count + " - " + geometry and nothing is freed; otherwise the oldest freed index is used and removed; the handle always ends with " - " + geometry and contains the geometry name |
| `Server.FirstCharIndex` | main.go:154-155 | the freed index a Remove records is exactly one character, the handle's first |
| `Server.Step` | main.go:125-189 | Add broadcasts the rewritten handle and stores a new model whose create slot is that message; Remove deletes the model, clears the free list when no model is left and otherwise appends the handle's first character; Move, Rotate and Scale overwrite only their slot of that model; every other tag changes nothing; no other model changes |
| `Server.ReplayModel` | main.go:70-108 | a model's replay has at most four messages, none empty, includes every filled slot and nothing else |
| `Server.NonEmpty` | main.go:73-107 | the filter keeps exactly the messages with a non-zero tag |
| `Server.Replay` | main.go:70-109 | the replay holds no empty slot and holds every filled slot of every visited model |
| `ServerReplay.StepKeepsWellFormed` | main.go:131-177 | every message keeps each stored model well formed: its create slot is filled and every slot is empty or holds its own kind for that handle |
| `ServerReplay.RunKeepsWellFormed` | main.go:125-189 | every state reached by processing messages from a well-formed state is well formed |
| `ServerReplay.NonEmptyKeepsTagOrder` | main.go:70-108 | dropping empty slots keeps the remaining messages in increasing tag order |
| `ServerReplay.ReplayModelOrdered` | main.go:72-108 | a model's replay starts with its create message, is addressed to its handle, and goes create, position, rotation, scale |
| `ServerReplay.ReplayNamesVisited` | main.go:70-109 | every replayed message names one of the visited models |
| `ServerReplay.ReplayCreatesFirst` | main.go:70-109 | in the replay, a model's create message precedes every other message about that model |
| `ServerReplay.ReplayTagsIncrease` | main.go:70-109 | with each model visited once, messages about the same model come in increasing tag order |
| `HandleUniqueness.InitialInv` | main.go:13-14 | the empty start state satisfies the index bookkeeping invariant |
| `HandleUniqueness.AddIsFresh` | main.go:45-52 | under the invariant, an admissible Add takes an index no live model uses, so its handle is not live |
| `HandleUniqueness.AddFreshKeepsInv` | main.go:131-139 | an Add that takes the next fresh index keeps the invariant with one more index in play |
| `HandleUniqueness.AddReusedKeepsInv` | main.go:46-49 | an Add that reuses the oldest freed index keeps the invariant |
| `HandleUniqueness.RemoveKeepsInv` | main.go:141-158 | a Remove of a live model keeps the invariant, and restarts the indices when the scene empties |
| `HandleUniqueness.StepKeepsInv` | main.go:125-177 | every admissible message keeps the invariant, and an Add's broadcast handle is never a live handle |
| `HandleUniqueness.AdmissibleRunRuns` | main.go:160-176 | an admissible history never crashes the server |
| `HandleUniqueness.RunKeepsInv` | main.go:125-189 | along an admissible history the invariant holds for some number of indices in play |
| `HandleUniqueness.AddedHandleNeverLive` | main.go:42-44 | after any admissible history from start-up, an admissible Add never produces the handle of a live model |
| `HandleUniqueness.ThreeBoxes` | main.go:51 | three Adds of a box from start-up give "0 - Box", "1 - Box" and "2 - Box" |
| `HandleUniqueness.DoubleRemoveReissuesHandle` | main.go:141-158 | removing "1 - Box" twice frees index 1 twice, and the next two Adds both get "1 - Box", so the second Add replaces a live model |
| `HandleUniqueness.TenthIndexCollides` | main.go:154-155 | with ten live models, the next Add gets index 10; removing it frees "1", and the following Add reissues the live handle "1 - g" |
| `Client.NewObj` | public/scripts/modelMeetup.js:415-417 | a new object is at the origin, unrotated, at unit scale |
| `Client.KindOf` | public/scripts/modelMeetup.js:404-412 | the geometry is the first of Plane, Box, Sphere, Cone whose name occurs in the handle, and none when no name occurs |
| `Client.AddModel` | public/scripts/modelMeetup.js:389-425 | a handle containing "JSON" starts a load of "./models/<text>.json" and adds nothing; any other handle stores a new object of the chosen geometry and colour, replacing an existing one, and touches no other handle |
| `Client.RemoveModel` | public/scripts/modelMeetup.js:451-458 | the handle is gone afterwards, every other object is unchanged, pending loads and retries are untouched, and an absent handle changes nothing |
| `Client.At` | public/scripts/modelMeetup.js:463-465 | reading an array past its end gives undefined; otherwise the element |
| `Client.SetProperty` | public/scripts/modelMeetup.js:463-465 | setting one transform leaves the other two and the shape unchanged |
| `Client.ApplyTo` | public/scripts/modelMeetup.js:461-469 | a handler sets the transform to the array's first three values, and a null array leaves the object unchanged |
| `Client.Attempt` | public/scripts/modelMeetup.js:461-489 | on a present handle only that object changes and nothing is queued; on an absent handle the update is queued again at the back and no object changes |
| `Client.PropertyOfTag` | public/scripts/modelMeetup.js:374-382 | tag 3 sets position, 4 rotation, 5 scale, and no other tag sets a transform |
| `Client.Receive` | public/scripts/modelMeetup.js:362-386 | tag 1 adds, 2 removes, 3/4/5 update the matching transform, and every other tag leaves the scene unchanged |
| `Client.LoadCompletes` | public/scripts/modelMeetup.js:435-446 | the loader callback stores a new object for the file under its handle whether or not the handle was removed meanwhile, drops only that load, and leaves retries and other objects unchanged |
| `Client.Fire` | public/scripts/modelMeetup.js:467 | an expiring timer on a present handle applies its update and disappears; on an absent handle it moves to the back of the queue |
| `ClientTimers.Waiting` | public/scripts/modelMeetup.js:466-468 | the retries that reschedule themselves are exactly the pending ones whose handle is absent |
| `ClientTimers.For` | public/scripts/modelMeetup.js:461-489 | the retries addressed to one handle, in queue order |
| `ClientTimers.ApplyAllAppend` | public/scripts/modelMeetup.js:461-489 | running handlers one after the other: the last runs on the result of the others |
| `ClientTimers.ApplyAllConcat` | public/scripts/modelMeetup.js:461-489 | running two batches of handlers in turn is running their concatenation |
| `ClientTimers.ApplyAllKeeps` | public/scripts/modelMeetup.js:461-469 | handlers for other transforms or with a null array leave a transform as it was |
| `ClientTimers.ApplyAllLastWins` | public/scripts/modelMeetup.js:461-489 | the last handler with an array for a transform decides it, whatever handlers ran before it, when no later handler writes that transform |
| `ClientTimers.AttemptAllShape` | public/scripts/modelMeetup.js:460-489 | running a batch of timers adds or removes no object, changes no load, and requeues the absent-handle retries in order |
| `ClientTimers.AttemptAllObjects` | public/scripts/modelMeetup.js:460-489 | running a batch of timers gives every present object exactly its own retries, in queue order |
| `ClientTimers.TickEffect` | public/scripts/modelMeetup.js:460-489 | one round of timers: same handles, same loads, the retries left are exactly the absent-handle ones in order, and each present object gets its own retries in order |
| `ClientTimers.TickApplies` | public/scripts/modelMeetup.js:461-469 | a pending update whose object is present takes effect at the next round and is gone after it |
| `ClientTimers.TicksKeepPending` | public/scripts/modelMeetup.js:466-468 | an update whose object is absent is still pending after any number of rounds |
| `ClientTimers.FireFrontRunsInOrder` | public/scripts/modelMeetup.js:467 | firing the front timer once per queued retry runs those retries in queue order |
| `ClientTimers.TickIsFiringFront` | public/scripts/modelMeetup.js:467 | a round of timers is the front timer firing once per pending retry |
| `ClientOrdering.RemoveIdempotent` | public/scripts/modelMeetup.js:451-458 | removing twice is removing once |
| `ClientOrdering.MoveBeforeLoadConverges` | public/scripts/modelMeetup.js:429-469 | a move that arrives while a JSON model loads waits; after the load and one round of timers, the model is where the move said and nothing is pending |
| `ClientOrdering.RemoveDoesNotCancelLoad` | public/scripts/modelMeetup.js:429-458 | a Remove during a load finds nothing, and the load still stores the model |
| `ClientOrdering.RetrySurvivesRemove` | public/scripts/modelMeetup.js:451-469 | a pending move survives a Remove and lands on the next model added under that handle |
| `ClientOrdering.PendingMovesCanSwap` | public/scripts/modelMeetup.js:461-469 | two moves wait for a loading model; the older one's timer expires before the load and is requeued behind the newer; after the load the front timers apply the newer move, then the older one, leaving the model at the older move's position with nothing pending |
| `ClientOrdering.LateMoveOvertakesPending` | public/scripts/modelMeetup.js:461-469 | a move that arrives after the load applies at once, then an older pending move overwrites it at the next round |
| `ClientOrdering.GhostMoveStaysPending` | public/scripts/modelMeetup.js:461-469 | a move for a handle nobody adds is never dropped and never creates an object |
| `Requests.InputJson` | public/scripts/modelMeetup.js:314-316 | an input that is not a number is written as null, a number as itself |
| `Requests.Request` | public/scripts/modelMeetup.js:350-357 | the sent object has exactly the four fields, holding the tag, the handle, the array and the text it is given |
| `Requests.RequestDecodes` | public/scripts/modelMeetup.js:347-359 | every message a client sends is read back by the server as exactly that message |
| `Requests.AddRequest` | public/scripts/modelMeetup.js:259-269 | the server reads an Add of the chosen geometry name with no array, carrying the file name for "JSON File" and the colour otherwise |
| `Requests.RemoveRequest` | public/scripts/modelMeetup.js:272-278 | the server reads a Remove of the selected handle with no array and empty text |
| `Requests.PropertyTag` | public/scripts/modelMeetup.js:318-328 | Position is sent as 3, Rotation as 4, Scale as 5, the inverse of the receiving side's dispatch |
| `Requests.UpdateRequest` | public/scripts/modelMeetup.js:313-329 | nothing is sent until a property is selected; otherwise the server reads the property's tag, the selected handle, and the three inputs with every non-number as 0 |
| `Requests.Send` | public/scripts/modelMeetup.js:347-359 | the object is sent iff the page has a socket |
| `Requests.UpdateWithoutSelectionStopsServer` | public/scripts/modelMeetup.js:313-329 | Update pressed on the initial "Choose a model" selection sends a transform that the server cannot process (main.go:164 dereferences a missing model) |
| `Relay.ReachableFreeListDigits` | main.go:141-158 | along an admissible history every freed index is a digit string |
| `Relay.IndexedHandleKeepsKind` | public/scripts/modelMeetup.js:391-412 | prefixing a digit index and " - " to Plane, Box, Sphere or Cone keeps the geometry the client picks and never looks like a JSON handle |
| `Relay.AddArrivesAsChosen` | main.go:131-139 | an Add from the dialog, rewritten and broadcast by the server, makes a client build the chosen primitive in the chosen colour under the new handle, or start loading the chosen file |
| `Relay.MirrorsUnique` | main.go:179-187 | two clients that mirror the same server state have the same scene |
| `Relay.LiveClientStep` | main.go:125-189 | for a message whose Add names a primitive and whose Move, Rotate or Scale carries an array, a client that mirrors the server still mirrors it after receiving the broadcast |
| `Relay.LiveClientMirrors` | main.go:125-189 | along a history of such messages, a client connected from the start and receiving every broadcast mirrors the server after every message |
| `Relay.ReplayModelArrives` | main.go:70-108 | for a primitive (non-JSON) model, a client receiving its replay shows that model as stored and changes nothing else |
| `Relay.ReplayArrivesShape` | main.go:69-109 | when no stored model is a JSON model, receiving a replay adds no pending work and leaves exactly the old objects plus the replayed models |
| `Relay.ReplayArrivesObject` | main.go:69-109 | when no stored model is a JSON model, after a replay every replayed model is shown as stored and every other object is unchanged |
| `Relay.LateJoinerMirrors` | main.go:69-109 | when no stored model is a JSON model, a client that joins late and receives the replay of every model mirrors the server |
| `Relay.LateJoinerSeesLiveScene` | main.go:69-109 | along a history of primitive Adds and array-carrying transforms, a late joiner ends with the same scene as a client connected from the start |
| `Relay.NullArrayMoveDiverges` | main.go:160-164 | after a move with an array and then one without, a live client keeps the first position but the stored message makes a late joiner place the model at the origin |

## Left out

- WebSocket and HTTP I/O, the `clients` set, the broadcast channel and goroutines, and `WriteJSON`/`ReadJSON` error handling are not modelled. The relay is "apply `Server.Step`, then deliver the broadcast".
- Concurrency between `handleConnections` and `handleMessages` is not modelled. The replay reads `allModels` while `handleMessages` may write it, and the new client is registered before its replay, so live broadcasts can reach it between replay messages; the model replays a consistent snapshot with no broadcast in between.
- `Client.Fire`: `Fire(s, i)` with i > 0 over-approximates the browser, which expires equal-delay timers in the order they were set; only `Fire(s, 0)` is a browser event, and the lemmas use only index 0.
- Go's map iteration order is nondeterministic. The replay takes the visiting order as a parameter.
- three.js is not modelled: meshes, materials, `setHex` colour parsing, geometry parameters, the scene graph and rendering. A colour is kept as its string, and a geometry as one of Plane, Box, Sphere, Cone or none.
- DOM and UI are not modelled: dropdown entries, modals, `onCurrentModelChange` after a Remove, and the property inputs.
- Real time is abstracted. Timer delays (500 ms) become `Client.Fire`/`Client.Tick` events, load latency becomes `Client.LoadCompletes`, and `requestAnimationFrame` is not modelled.
- A failed file load is not a separate event. Its callback never runs, so the load simply never completes.
- The `loader == null` branch of `loadModel` is not modelled. The loader is created during page initialisation, before any message can arrive.
- `allModels` is a plain JavaScript object, so inherited keys such as "constructor" look present. The model's map starts empty.
- Go's `string(msg.ModelHandle[0])` takes the handle's first byte; the model takes its first character. The two agree on handles made by the allocator, which start with an ASCII digit.
- Numbers are reals. There is no float64 rounding, no infinity, and no overflow of Go's `int` tag. `parseFloat` is abstracted to "a number or NaN".
- A decoded message whose type tag is not an integer is modelled as an error. Go's handling of integer overflow in that field is not modelled. `Codec.Decode` accepts an integral tag spelled with a fraction or exponent (`1.0`, `1e0`), which Go's decoder rejects for the `int` field; JSON numbers are modelled by their value, not their spelling.
- `Requests.Send`: models only "socket exists or not". The WebSocket ready states are not modelled: `send` throws while connecting and silently drops after close.
- `Server.Step`: the crash paths (a transform for an absent model, a Remove with an empty handle while other models remain) are a precondition (`Server.CanStep`), not an error outcome. The Go process crashes there, so there is no state after it to model.
- `HandleUniqueness.AddedHandleNeverLive`: proves the uniqueness the allocator's comments claim only under the two conditions stated above. `HandleUniqueness.DoubleRemoveReissuesHandle` and `HandleUniqueness.TenthIndexCollides` show that it fails without them.
- `Relay.LiveClientStep`: holds only for messages whose Add names a primitive and whose Move, Rotate or Scale carries an array. A JSON Add makes the client start a load, which completes later (`ClientOrdering.MoveBeforeLoadConverges`); a transform without an array makes the client and the stored model differ (`Relay.NullArrayMoveDiverges`).
- `Relay.LiveClientMirrors`: holds only along histories of such messages, for the same reasons.
- `Relay.ReplayModelArrives`: covers primitive models only. The replay of a JSON model queues a load and shows nothing until the load completes and a round of timers has run.
- `Relay.ReplayArrivesShape`: covers servers holding no JSON model only; each replayed JSON model adds a pending load.
- `Relay.ReplayArrivesObject`: covers servers holding no JSON model only, for the same reason.
- `Relay.LateJoinerMirrors`: covers servers holding no JSON model only; with JSON models, a late joiner matches the server only after its loads complete and a round of timers has run.
- `Relay.LateJoinerSeesLiveScene`: covers primitive models only, and only transforms that carry an array. For JSON models, a late joiner starts loads and queues retries like any client (`ClientOrdering.MoveBeforeLoadConverges`). A transform without an array makes the two views differ (`Relay.NullArrayMoveDiverges`).

=== FILE: client.dfy ===
/** The browser client's message dispatcher (public/scripts/modelMeetup.js `receiveMessage` and
    the handlers it calls). The scene is the map `allModels` from handle to object; the timers
    that `moveModel`, `rotateModel` and `scaleModel` set on an absent handle are an explicit
    queue of pending retries, and the JSON loads still in flight are an explicit queue of
    pending loads. Each callback is an event: `Fire(s, i)` is the i-th pending timer expiring
    (all timers wait 500 ms, so the browser expires the front one first: `Fire(s, 0)`),
    `Tick(s)` is every pending timer expiring once in queue order, and `LoadCompletes(s, i)` is
    the i-th load's callback running. */
module Client {
  import opened Common
  import opened Messages

  /** A coordinate as JavaScript holds it: a number, or `undefined` read past the array's end. */
  datatype Coord = Undefined | Num(value: real)

  datatype Vec3 = Vec3(x: Coord, y: Coord, z: Coord)

  /** The geometry `addModel` picks; `NoGeometry` is the case where no name matched and the
      variable `geometry` stayed undefined. */
  datatype Primitive = Plane | Box | Sphere | Cone | NoGeometry

  /** What an object is drawn from: a primitive with the colour string of the Add message, or
      a model file fetched from the given path. */
  datatype Shape = PrimitiveShape(kind: Primitive, color: string) | AssetShape(path: string)

  /** A scene object: its shape and the three transform triples the messages set. */
  datatype Obj = Obj(shape: Shape, position: Vec3, rotation: Vec3, scale: Vec3)

  /** The transform a Move, Rotate or Scale sets. */
  datatype Property = Position | Rotation | Scale

  /** A Move, Rotate or Scale waiting on its timer: what to set, on which handle, to what array. */
  datatype Retry = Retry(property: Property, handle: string, data: Option<seq<real>>)

  /** A model file whose loader callback has not run yet, and the handle it will be stored under. */
  datatype Load = Load(handle: string, path: string)

  datatype Scene = Scene(objects: map<string, Obj>, retries: seq<Retry>, loads: seq<Load>)

  /** The client after start-up: nothing in the scene, nothing pending. */
  const EmptyScene: Scene := Scene(map[], [], [])

  const Origin: Vec3 := Vec3(Num(0.0), Num(0.0), Num(0.0))
  const UnitScale: Vec3 := Vec3(Num(1.0), Num(1.0), Num(1.0))

  /** A newly constructed mesh: at the origin, unrotated, unit scale. */
  function NewObj(shape: Shape): (o: Obj)
    ensures o.shape == shape && o.position == Origin && o.rotation == Origin && o.scale == UnitScale
  {
    Obj(shape, Origin, Origin, UnitScale)
  }

  /** The path `loadModel` fetches for a model name. */
  function AssetPath(name: string): string
  {
    "./models/" + name + ".json"
  }

  /** The geometry `addModel` builds for a handle: the first of Plane, Box, Sphere, Cone whose
      name occurs in the handle. */
  function KindOf(handle: string): (k: Primitive)
    ensures k == Plane <==> Contains(handle, "Plane")
    ensures k == Box <==> !Contains(handle, "Plane") && Contains(handle, "Box")
    ensures k == Sphere <==> !Contains(handle, "Plane") && !Contains(handle, "Box") && Contains(handle, "Sphere")
    ensures k == Cone <==> !Contains(handle, "Plane") && !Contains(handle, "Box") && !Contains(handle, "Sphere")
                            && Contains(handle, "Cone")
    ensures k == NoGeometry <==> !Contains(handle, "Plane") && !Contains(handle, "Box") && !Contains(handle, "Sphere")
                                  && !Contains(handle, "Cone")
  {
    if Contains(handle, "Plane") then Plane
    else if Contains(handle, "Box") then Box
    else if Contains(handle, "Sphere") then Sphere
    else if Contains(handle, "Cone") then Cone
    else NoGeometry
  }

  /** True iff `addModel` takes the asynchronous path for this handle. */
  predicate IsAssetHandle(handle: string)
  {
    Contains(handle, "JSON")
  }

  /** `addModel`: a handle naming a JSON model starts a load and adds nothing yet; any other
      handle gets a new primitive object at once, replacing an object already stored under it. */
  function AddModel(s: Scene, handle: string, text: string): (r: Scene)
    ensures r.retries == s.retries
    ensures IsAssetHandle(handle) ==> r.objects == s.objects && r.loads == s.loads + [Load(handle, AssetPath(text))]
    ensures !IsAssetHandle(handle) ==>
      && r.loads == s.loads
      && r.objects.Keys == s.objects.Keys + {handle}
      && r.objects[handle] == NewObj(PrimitiveShape(KindOf(handle), text))
      && (forall h :: h in s.objects && h != handle ==> r.objects[h] == s.objects[h])
  {
    if IsAssetHandle(handle) then s.(loads := s.loads + [Load(handle, AssetPath(text))])
    else s.(objects := s.objects[handle := NewObj(PrimitiveShape(KindOf(handle), text))])
  }

  /** `removeModel`: forget the object if there is one. Pending loads and retries are not touched. */
  function RemoveModel(s: Scene, handle: string): (r: Scene)
    ensures r.objects.Keys == s.objects.Keys - {handle}
    ensures forall h :: h in r.objects ==> r.objects[h] == s.objects[h]
    ensures r.retries == s.retries && r.loads == s.loads
    ensures handle !in s.objects ==> r == s
  {
    if handle in s.objects then s.(objects := s.objects - {handle}) else s
  }

  /** The i-th element of a JavaScript array, `undefined` past its end. */
  function At(a: seq<real>, i: nat): (c: Coord)
    ensures c.Num? <==> i < |a|
    ensures i < |a| ==> c.value == a[i]
  {
    if i < |a| then Num(a[i]) else Undefined
  }

  /** The triple the handlers copy out of an array: its first three elements. */
  function Triple(a: seq<real>): Vec3
  {
    Vec3(At(a, 0), At(a, 1), At(a, 2))
  }

  function GetProperty(o: Obj, p: Property): Vec3
  {
    match p
    case Position => o.position
    case Rotation => o.rotation
    case Scale => o.scale
  }

  /** Sets one transform of an object. */
  function SetProperty(o: Obj, p: Property, v: Vec3): (r: Obj)
    ensures GetProperty(r, p) == v
    ensures forall q :: q != p ==> GetProperty(r, q) == GetProperty(o, q)
    ensures r.shape == o.shape
  {
    match p
    case Position => o.(position := v)
    case Rotation => o.(rotation := v)
    case Scale => o.(scale := v)
  }

  /** What one run of a handler does to the object it finds: copy the array's first three
      values into the transform; a null array throws before anything is written. */
  function ApplyTo(o: Obj, r: Retry): (o': Obj)
    ensures r.data.None? ==> o' == o
    ensures r.data.Some? ==> o' == SetProperty(o, r.property, Triple(r.data.value))
  {
    match r.data
    case None => o
    case Some(a) => SetProperty(o, r.property, Triple(a))
  }

  /** One run of `moveModel`, `rotateModel` or `scaleModel`: on a present handle, set the
      transform; on an absent handle, schedule another run (a new pending retry at the back). */
  function Attempt(s: Scene, r: Retry): (s': Scene)
    ensures s'.loads == s.loads
    ensures s'.objects.Keys == s.objects.Keys
    ensures r.handle in s.objects ==>
      && s'.retries == s.retries
      && s'.objects[r.handle] == ApplyTo(s.objects[r.handle], r)
      && (forall h :: h in s.objects && h != r.handle ==> s'.objects[h] == s.objects[h])
    ensures r.handle !in s.objects ==> s'.objects == s.objects && s'.retries == s.retries + [r]
  {
    if r.handle in s.objects then s.(objects := s.objects[r.handle := ApplyTo(s.objects[r.handle], r)])
    else s.(retries := s.retries + [r])
  }

  /** The property a Move, Rotate or Scale tag sets. */
  function PropertyOfTag(tag: int): (p: Option<Property>)
    ensures p == Some(Position) <==> tag == MoveTag
    ensures p == Some(Rotation) <==> tag == RotateTag
    ensures p == Some(Scale) <==> tag == ScaleTag
    ensures p.None? <==> tag !in {MoveTag, RotateTag, ScaleTag}
  {
    if tag == MoveTag then Some(Position)
    else if tag == RotateTag then Some(Rotation)
    else if tag == ScaleTag then Some(Scale)
    else None
  }

  /** `receiveMessage`: dispatch on the tag; an unknown tag changes nothing. */
  function Receive(s: Scene, m: Message): (r: Scene)
    ensures m.tag == AddTag ==> r == AddModel(s, m.handle, m.text)
    ensures m.tag == RemoveTag ==> r == RemoveModel(s, m.handle)
    ensures PropertyOfTag(m.tag).Some? ==> r == Attempt(s, Retry(PropertyOfTag(m.tag).value, m.handle, m.floats))
    ensures m.tag !in {AddTag, RemoveTag, MoveTag, RotateTag, ScaleTag} ==> r == s
  {
    if m.tag == AddTag then AddModel(s, m.handle, m.text)
    else if m.tag == RemoveTag then RemoveModel(s, m.handle)
    else
      match PropertyOfTag(m.tag)
      case Some(p) => Attempt(s, Retry(p, m.handle, m.floats))
      case None => s
  }

  /** The client processes a sequence of incoming messages, with no timer or load event between them. */
  function ReceiveAll(s: Scene, ms: seq<Message>): Scene
    decreases |ms|
  {
    if |ms| == 0 then s else ReceiveAll(Receive(s, ms[0]), ms[1..])
  }

  /** The sequence without its i-th element. */
  function RemoveAt<T>(q: seq<T>, i: nat): (r: seq<T>)
    requires i < |q|
    ensures |r| == |q| - 1
    ensures forall j :: 0 <= j < i ==> r[j] == q[j]
    ensures forall j :: i <= j < |r| ==> r[j] == q[j + 1]
  {
    q[..i] + q[i + 1..]
  }

  /** The loader callback of the i-th pending load: store a new object for the file under its
      handle, whether or not the handle was removed or re-added meanwhile. */
  function LoadCompletes(s: Scene, i: nat): (r: Scene)
    requires i < |s.loads|
    ensures r.retries == s.retries
    ensures r.loads == RemoveAt(s.loads, i)
    ensures r.objects.Keys == s.objects.Keys + {s.loads[i].handle}
    ensures r.objects[s.loads[i].handle] == NewObj(AssetShape(s.loads[i].path))
    ensures forall h :: h in s.objects && h != s.loads[i].handle ==> r.objects[h] == s.objects[h]
  {
    var l := s.loads[i];
    Scene(s.objects[l.handle := NewObj(AssetShape(l.path))], s.retries, RemoveAt(s.loads, i))
  }

  /** The timer of the i-th pending retry expires: its handler runs once more. */
  function Fire(s: Scene, i: nat): (r: Scene)
    requires i < |s.retries|
    ensures r.loads == s.loads && r.objects.Keys == s.objects.Keys
    ensures s.retries[i].handle in s.objects ==>
      && r.retries == RemoveAt(s.retries, i)
      && r.objects == s.objects[s.retries[i].handle := ApplyTo(s.objects[s.retries[i].handle], s.retries[i])]
    ensures s.retries[i].handle !in s.objects ==> r.objects == s.objects && r.retries == RemoveAt(s.retries, i) + [s.retries[i]]
  {
    Attempt(s.(retries := RemoveAt(s.retries, i)), s.retries[i])
  }

  /** Runs the handlers of `rs` in order, starting from `s`. */
  function AttemptAll(s: Scene, rs: seq<Retry>): Scene
    decreases |rs|
  {
    if |rs| == 0 then s else AttemptAll(Attempt(s, rs[0]), rs[1..])
  }

  /** Every pending timer expires once, in the order the timers were set. */
  function Tick(s: Scene): Scene
  {
    AttemptAll(s.(retries := []), s.retries)
  }

  /** `n` rounds of `Tick`. */
  function Ticks(s: Scene, n: nat): Scene
    decreases n
  {
    if n == 0 then s else Ticks(Tick(s), n - 1)
  }
}

=== FILE: client_order.dfy ===
/** Event orders the client's message handlers allow (public/scripts/modelMeetup.js
    `receiveMessage`, `loadModel`, `removeModel`, `moveModel`): an update that arrives before
    its model has loaded takes effect once it has; a removal does not cancel a load in flight;
    and updates to the same model can land in another order than they arrived. */
module ClientOrdering {
  import opened Common
  import opened Messages
  import opened Client
  import opened ClientTimers

  /** A client with no pending work that has never seen handle `h`. */
  predicate Idle(s: Scene, h: string)
  {
    h !in s.objects && s.retries == [] && s.loads == []
  }

  /** Removing twice is removing once. */
  lemma RemoveIdempotent(s: Scene, h: string)
    ensures Receive(Receive(s, RemoveMessage(h)), RemoveMessage(h)) == Receive(s, RemoveMessage(h))
    ensures h !in Receive(s, RemoveMessage(h)).objects
  {
  }

  /** A JSON model that is moved while its file is still loading: the move waits, and after the
      file has loaded, one round of timers puts the model where the move said. */
  lemma MoveBeforeLoadConverges(s: Scene, h: string, file: string, a: seq<real>)
    requires Idle(s, h) && IsAssetHandle(h)
    ensures var s1 := Receive(Receive(s, AddMessage(h, file)), MoveMessage(h, a));
      && s1.objects == s.objects
      && s1.retries == [Retry(Position, h, Some(a))]
      && s1.loads == [Load(h, AssetPath(file))]
      && var s2 := Tick(LoadCompletes(s1, 0));
      && h in s2.objects
      && s2.objects[h].shape == AssetShape(AssetPath(file))
      && s2.objects[h].position == Triple(a)
      && s2.retries == [] && s2.loads == []
  {
    var s1 := Receive(Receive(s, AddMessage(h, file)), MoveMessage(h, a));
    var l := LoadCompletes(s1, 0);
    TickApplies(l, Retry(Position, h, Some(a)));
    TickEffect(l);
    assert For(l.retries, h) == [Retry(Position, h, Some(a))];
  }

  /** A Remove that arrives while the file of a JSON model is loading finds nothing to remove,
      and the load then stores the model anyway. */
  lemma RemoveDoesNotCancelLoad(s: Scene, h: string, file: string)
    requires h !in s.objects && IsAssetHandle(h)
    ensures var s1 := Receive(Receive(s, AddMessage(h, file)), RemoveMessage(h));
      && |s1.loads| == |s.loads| + 1
      && s1.loads[|s.loads|] == Load(h, AssetPath(file))
      && h !in s1.objects
      && h in LoadCompletes(s1, |s.loads|).objects
  {
  }

  /** A pending update is not cancelled by a Remove either: it stays queued, and lands on the next
      model stored under the same handle. */
  lemma RetrySurvivesRemove(s: Scene, h: string, color: string, a: seq<real>)
    requires Idle(s, h) && !IsAssetHandle(h)
    ensures var s1 := Receive(s, MoveMessage(h, a));
      && s1.retries == [Retry(Position, h, Some(a))]
      && Receive(s1, RemoveMessage(h)).retries == s1.retries
      && var s2 := Tick(Receive(Receive(s1, RemoveMessage(h)), AddMessage(h, color)));
      && h in s2.objects && s2.objects[h].position == Triple(a) && s2.retries == []
  {
    var s1 := Receive(s, MoveMessage(h, a));
    var s2 := Receive(Receive(s1, RemoveMessage(h)), AddMessage(h, color));
    TickEffect(s2);
    TickApplies(s2, Retry(Position, h, Some(a)));
    assert For(s2.retries, h) == [Retry(Position, h, Some(a))];
    assert Waiting(s2.retries, s2.objects.Keys) == [];
  }

  /** Two moves that arrive while a JSON model loads wait on two timers, set in arrival order.
      When the older timer expires before the load completes, its move is requeued behind the
      newer one; after the load, the timers expire newer first, so the model ends where the
      OLDER move said. */
  lemma PendingMovesCanSwap(s: Scene, h: string, file: string, a: seq<real>, b: seq<real>)
    requires Idle(s, h) && IsAssetHandle(h)
    ensures var s1 := Receive(Receive(Receive(s, AddMessage(h, file)), MoveMessage(h, a)), MoveMessage(h, b));
      && s1.retries == [Retry(Position, h, Some(a)), Retry(Position, h, Some(b))]
      && |s1.loads| == 1
      && var s2 := Fire(s1, 0);
      && s2.objects == s1.objects
      && s2.retries == [Retry(Position, h, Some(b)), Retry(Position, h, Some(a))]
      && var s3 := Fire(LoadCompletes(s2, 0), 0);
      && h in s3.objects && s3.objects[h].position == Triple(b)
      && s3.retries == [Retry(Position, h, Some(a))]
      && var s4 := Fire(s3, 0);
      && h in s4.objects && s4.objects[h].position == Triple(a) && s4.retries == []
  {
  }

  /** Even when timers expire in the order they were set, a move that arrives after the model has
      loaded is applied at once and then overwritten by an older move still waiting on its timer. */
  lemma LateMoveOvertakesPending(s: Scene, h: string, file: string, a: seq<real>, b: seq<real>)
    requires Idle(s, h) && IsAssetHandle(h)
    ensures var s1 := LoadCompletes(Receive(Receive(s, AddMessage(h, file)), MoveMessage(h, a)), 0);
      && s1.retries == [Retry(Position, h, Some(a))]
      && var s2 := Receive(s1, MoveMessage(h, b));
      && s2.objects[h].position == Triple(b)
      && h in Tick(s2).objects && Tick(s2).objects[h].position == Triple(a)
  {
    var s1 := LoadCompletes(Receive(Receive(s, AddMessage(h, file)), MoveMessage(h, a)), 0);
    var s2 := Receive(s1, MoveMessage(h, b));
    TickApplies(s2, Retry(Position, h, Some(a)));
    assert For(s2.retries, h) == [Retry(Position, h, Some(a))];
  }

  /** A move for a handle that no message ever adds is retried forever: no number of timer rounds
      drops it. */
  lemma GhostMoveStaysPending(s: Scene, h: string, a: seq<real>, n: nat)
    requires h !in s.objects
    ensures Retry(Position, h, Some(a)) in Ticks(Receive(s, MoveMessage(h, a)), n).retries
    ensures h !in Ticks(Receive(s, MoveMessage(h, a)), n).objects
  {
    TicksKeepPending(Receive(s, MoveMessage(h, a)), n, Retry(Position, h, Some(a)));
  }
}

=== FILE: client_timers.dfy ===
/** What the retry timers of the client do (public/scripts/modelMeetup.js `moveModel`,
    `rotateModel`, `scaleModel`): which pending updates land, which stay pending, in what
    order they land, and why the order in which updates were received is not kept. */
module ClientTimers {
  import opened Client

  /** The retries of `rs` whose handle is not among `present`, in queue order: the ones that
      schedule themselves again. */
  function Waiting(rs: seq<Retry>, present: set<string>): (w: seq<Retry>)
    ensures |w| <= |rs|
    ensures forall r :: r in w <==> r in rs && r.handle !in present
    decreases |rs|
  {
    if |rs| == 0 then []
    else (if rs[0].handle in present then [] else [rs[0]]) + Waiting(rs[1..], present)
  }

  /** The retries of `rs` addressed to handle `h`, in queue order. */
  function For(rs: seq<Retry>, h: string): (f: seq<Retry>)
    ensures |f| <= |rs|
    ensures forall r :: r in f <==> r in rs && r.handle == h
    decreases |rs|
  {
    if |rs| == 0 then []
    else (if rs[0].handle == h then [rs[0]] else []) + For(rs[1..], h)
  }

  /** The object after the handlers of `rs` have run on it one after the other. */
  function ApplyAll(o: Obj, rs: seq<Retry>): Obj
    decreases |rs|
  {
    if |rs| == 0 then o else ApplyAll(ApplyTo(o, rs[0]), rs[1..])
  }

  /** Running handlers one after the other: the last handler runs on the result of the others. */
  lemma {:induction false} ApplyAllAppend(o: Obj, rs: seq<Retry>, r: Retry)
    ensures ApplyAll(o, rs + [r]) == ApplyTo(ApplyAll(o, rs), r)
    decreases |rs|
  {
    if |rs| > 0 {
      assert (rs + [r])[1..] == rs[1..] + [r];
      ApplyAllAppend(ApplyTo(o, rs[0]), rs[1..], r);
    }
  }

  /** Running two batches of handlers one after the other is running their concatenation. */
  lemma {:induction false} ApplyAllConcat(o: Obj, a: seq<Retry>, b: seq<Retry>)
    ensures ApplyAll(o, a + b) == ApplyAll(ApplyAll(o, a), b)
    decreases |a|
  {
    if |a| == 0 {
      assert a + b == b;
    } else {
      assert (a + b)[1..] == a[1..] + b;
      ApplyAllConcat(ApplyTo(o, a[0]), a[1..], b);
    }
  }

  /** Handlers that do not write property `p` (another property, or a null array) leave it as it was. */
  lemma {:induction false} ApplyAllKeeps(o: Obj, rs: seq<Retry>, p: Property)
    requires forall x :: x in rs ==> x.data.None? || x.property != p
    ensures GetProperty(ApplyAll(o, rs), p) == GetProperty(o, p)
    decreases |rs|
  {
    if |rs| > 0 {
      assert rs[0] in rs;
      assert forall x :: x in rs[1..] ==> x in rs;
      ApplyAllKeeps(ApplyTo(o, rs[0]), rs[1..], p);
    }
  }

  /** Among handlers run one after the other, the last one with an array decides its
      property when no later handler writes that property. */
  lemma ApplyAllLastWins(o: Obj, rs: seq<Retry>, r: Retry, rest: seq<Retry>)
    requires r.data.Some?
    requires forall x :: x in rest ==> x.data.None? || x.property != r.property
    ensures GetProperty(ApplyAll(o, rs + [r] + rest), r.property) == Triple(r.data.value)
  {
    ApplyAllConcat(o, rs + [r], rest);
    ApplyAllAppend(o, rs, r);
    ApplyAllKeeps(ApplyAll(o, rs + [r]), rest, r.property);
  }

  /** Running the handlers `rs` from scene `s` makes no object appear or disappear, changes no
      load, and queues the retries on absent handles again at the back, in the same order. */
  lemma {:induction false} AttemptAllShape(s: Scene, rs: seq<Retry>)
    ensures AttemptAll(s, rs).objects.Keys == s.objects.Keys
    ensures AttemptAll(s, rs).loads == s.loads
    ensures AttemptAll(s, rs).retries == s.retries + Waiting(rs, s.objects.Keys)
    decreases |rs|
  {
    if |rs| > 0 {
      var s1 := Attempt(s, rs[0]);
      AttemptAllShape(s1, rs[1..]);
      var w := if rs[0].handle in s.objects.Keys then [] else [rs[0]];
      assert s1.retries == s.retries + w;
      assert Waiting(rs, s.objects.Keys) == w + Waiting(rs[1..], s.objects.Keys);
      assert s.retries + w + Waiting(rs[1..], s.objects.Keys) == s.retries + (w + Waiting(rs[1..], s.objects.Keys));
    }
  }

  /** Running the handlers `rs` from scene `s`, every present object receives exactly its own
      retries, in queue order. */
  lemma {:induction false} AttemptAllObjects(s: Scene, rs: seq<Retry>, h: string)
    requires h in s.objects
    ensures h in AttemptAll(s, rs).objects
    ensures AttemptAll(s, rs).objects[h] == ApplyAll(s.objects[h], For(rs, h))
    decreases |rs|
  {
    if |rs| > 0 {
      var s1 := Attempt(s, rs[0]);
      AttemptAllObjects(s1, rs[1..], h);
      if rs[0].handle == h {
        assert For(rs, h) == [rs[0]] + For(rs[1..], h);
        assert ([rs[0]] + For(rs[1..], h))[1..] == For(rs[1..], h);
      } else {
        assert For(rs, h) == For(rs[1..], h);
      }
    }
  }

  /** One round of timers: objects and loads are unchanged in extent, the retries on absent
      handles remain pending in their order, and every present object receives its own pending
      retries in the order they were queued. */
  lemma TickEffect(s: Scene)
    ensures Tick(s).objects.Keys == s.objects.Keys
    ensures Tick(s).loads == s.loads
    ensures Tick(s).retries == Waiting(s.retries, s.objects.Keys)
    ensures forall h :: h in s.objects ==> Tick(s).objects[h] == ApplyAll(s.objects[h], For(s.retries, h))
  {
    AttemptAllShape(s.(retries := []), s.retries);
    forall h | h in s.objects
      ensures Tick(s).objects[h] == ApplyAll(s.objects[h], For(s.retries, h))
    {
      AttemptAllObjects(s.(retries := []), s.retries, h);
    }
  }

  /** A pending retry whose object exists takes effect at the next round, and is gone after it;
      when it is the only retry pending for that object, the object is exactly its effect. */
  lemma TickApplies(s: Scene, r: Retry)
    requires r in s.retries && r.handle in s.objects
    ensures r !in Tick(s).retries && r.handle in Tick(s).objects
    ensures For(s.retries, r.handle) == [r] ==> Tick(s).objects[r.handle] == ApplyTo(s.objects[r.handle], r)
  {
    TickEffect(s);
    assert ApplyAll(s.objects[r.handle], [r]) == ApplyAll(ApplyTo(s.objects[r.handle], r), []);
  }

  /** A retry whose object does not exist is never dropped: it is still pending after any number
      of rounds, and the rounds add or remove no object and no load. */
  lemma {:induction false} TicksKeepPending(s: Scene, n: nat, r: Retry)
    requires r in s.retries && r.handle !in s.objects
    ensures r in Ticks(s, n).retries
    ensures Ticks(s, n).objects.Keys == s.objects.Keys && Ticks(s, n).loads == s.loads
    decreases n
  {
    if n > 0 {
      TickEffect(s);
      TicksKeepPending(Tick(s), n - 1, r);
    }
  }

  /** The front timer expires `n` times in a row. */
  function FireFront(s: Scene, n: nat): Scene
    requires n <= |s.retries|
    decreases n
  {
    if n == 0 then s else FireFront(Fire(s, 0), n - 1)
  }

  /** Firing the front timers of `rs + q` once for each element of `rs` runs the handlers of
      `rs` in order, on a scene whose queue holds `q`. */
  lemma {:induction false} FireFrontRunsInOrder(t: Scene, rs: seq<Retry>, q: seq<Retry>)
    requires t.retries == rs + q
    ensures FireFront(t, |rs|) == AttemptAll(t.(retries := q), rs)
    decreases |rs|
  {
    if |rs| > 0 {
      var f := Fire(t, 0);
      var u := Attempt(t.(retries := q), rs[0]);
      assert RemoveAt(rs + q, 0) == rs[1..] + q;
      if rs[0].handle !in t.objects {
        assert rs[1..] + q + [rs[0]] == rs[1..] + (q + [rs[0]]);
      }
      assert f == u.(retries := rs[1..] + u.retries);
      FireFrontRunsInOrder(f, rs[1..], u.retries);
      assert f.(retries := u.retries) == u;
    }
  }

  /** A round of timers is the same as the front timer expiring once per pending retry. */
  lemma TickIsFiringFront(s: Scene)
    ensures Tick(s) == FireFront(s, |s.retries|)
  {
    assert s.retries == s.retries + [];
    FireFrontRunsInOrder(s, s.retries, []);
  }
}

=== FILE: codec.dfy ===
/** The wire form of a message: a JSON object with the four fields named by the Go struct
    tags, which is also the object the browser client builds before `JSON.stringify`. */
module Codec {
  import opened Common
  import opened Messages

  /** The JSON values that occur in a message. */
  datatype Json = JNull | JNum(num: real) | JStr(str: string) | JArr(items: seq<Json>)

  /** A parsed JSON object: field name to value. */
  type JsonObject = map<string, Json>

  const TypeField: string := "messageType"
  const HandleField: string := "modelHandle"
  const FloatsField: string := "floatArrayData"
  const TextField: string := "stringData"

  /** Why a JSON object does not decode into a message. */
  datatype DecodeError = BadType | BadHandle | BadFloats | BadText

  /** The four-field object for the given field values, as the client's `sendMessage` builds it. */
  function Object(msgType: Json, handle: Json, floats: Json, text: Json): (o: JsonObject)
    ensures o.Keys == {TypeField, HandleField, FloatsField, TextField}
    ensures o[TypeField] == msgType && o[HandleField] == handle
    ensures o[FloatsField] == floats && o[TextField] == text
  {
    map[TypeField := msgType, HandleField := handle, FloatsField := floats, TextField := text]
  }

  function EncodeFloats(xs: seq<real>): (js: seq<Json>)
    ensures |js| == |xs|
    ensures forall i :: 0 <= i < |xs| ==> js[i] == JNum(xs[i])
  {
    if |xs| == 0 then [] else [JNum(xs[0])] + EncodeFloats(xs[1..])
  }

  /** Writes a message as JSON, as Go's `WriteJSON` does: a nil array becomes `null`. */
  function Encode(m: Message): (o: JsonObject)
    ensures o.Keys == {TypeField, HandleField, FloatsField, TextField}
    ensures o[TypeField] == JNum(m.tag as real) && o[HandleField] == JStr(m.handle)
    ensures o[TextField] == JStr(m.text)
    ensures m.floats.None? <==> o[FloatsField] == JNull
  {
    Object(JNum(m.tag as real), JStr(m.handle),
           match m.floats { case None => JNull case Some(xs) => JArr(EncodeFloats(xs)) },
           JStr(m.text))
  }

  /** The value of a field, with a missing field read as `null`. */
  function Field(o: JsonObject, name: string): Json
  {
    if name in o then o[name] else JNull
  }

  /** Reads the elements of a JSON number array into a Go `[]float64`; a `null` element leaves
      the element's zero value. */
  function DecodeFloats(js: seq<Json>): (r: Option<seq<real>>)
    ensures r.Some? <==> forall i :: 0 <= i < |js| ==> js[i].JNum? || js[i].JNull?
    ensures r.Some? ==> |r.value| == |js|
    ensures r.Some? ==> forall i :: 0 <= i < |js| ==> r.value[i] == (if js[i].JNum? then js[i].num else 0.0)
  {
    if |js| == 0 then Some([])
    else
      var head := match js[0] { case JNum(x) => Some(x) case JNull => Some(0.0) case _ => None };
      var tail := DecodeFloats(js[1..]);
      if head.None? || tail.None? then None else Some([head.value] + tail.value)
  }

  /** Reads a JSON object into a Go `Message` as `ReadJSON` does for the four fields: a missing
      or `null` field keeps its zero value, an integral number decodes into the tag, and a
      value of the wrong JSON type is an error. Other fields are ignored. */
  function Decode(o: JsonObject): (r: Result<Message, DecodeError>)
    ensures r.Success? <==>
      && (Field(o, TypeField).JNull? || (Field(o, TypeField).JNum? && Field(o, TypeField).num.Floor as real == Field(o, TypeField).num))
      && (Field(o, HandleField).JNull? || Field(o, HandleField).JStr?)
      && (Field(o, FloatsField).JNull? || (Field(o, FloatsField).JArr? && DecodeFloats(Field(o, FloatsField).items).Some?))
      && (Field(o, TextField).JNull? || Field(o, TextField).JStr?)
    ensures r.Success? ==> r.value.floats == (if Field(o, FloatsField).JArr? then DecodeFloats(Field(o, FloatsField).items) else None)
    ensures r.Success? ==> r.value.handle == (if Field(o, HandleField).JStr? then Field(o, HandleField).str else "")
    ensures r.Success? ==> r.value.text == (if Field(o, TextField).JStr? then Field(o, TextField).str else "")
    ensures r.Success? && Field(o, TypeField).JNum? ==> r.value.tag as real == Field(o, TypeField).num
    ensures r.Success? && Field(o, TypeField).JNull? ==> r.value.tag == 0
    ensures Field(o, TypeField).JStr? || Field(o, TypeField).JArr? ==> r == Failure(BadType)
  {
    var t := Field(o, TypeField);
    var h := Field(o, HandleField);
    var f := Field(o, FloatsField);
    var s := Field(o, TextField);
    if !(t.JNull? || (t.JNum? && t.num.Floor as real == t.num)) then Failure(BadType)
    else if !(h.JNull? || h.JStr?) then Failure(BadHandle)
    else if !(f.JNull? || (f.JArr? && DecodeFloats(f.items).Some?)) then Failure(BadFloats)
    else if !(s.JNull? || s.JStr?) then Failure(BadText)
    else
      Success(Message(
        if t.JNum? then t.num.Floor else 0,
        if h.JStr? then h.str else "",
        if f.JArr? then DecodeFloats(f.items) else None,
        if s.JStr? then s.str else ""))
  }

  /** Every message survives the trip through JSON unchanged. */
  lemma RoundTrip(m: Message)
    ensures Decode(Encode(m)) == Success(m)
  {
    var o := Encode(m);
    assert Field(o, TypeField) == JNum(m.tag as real);
    match m.floats {
      case None =>
      case Some(xs) =>
        var js := EncodeFloats(xs);
        assert Field(o, FloatsField) == JArr(js);
        assert DecodeFloats(js).value == xs;
    }
  }
}

=== FILE: common.dfy ===
/** Small value types and string helpers shared by the server and the client models. */
module Common {

  /** A value that may be absent: a JSON `null`, a Go nil slice, an unset field. */
  datatype Option<+T> = None | Some(value: T)

  /** The outcome of an operation that can fail with an error of type `E`. */
  datatype Result<+T, +E> = Success(value: T) | Failure(error: E)

  /** True iff `t` occurs in `s` as a contiguous block (JavaScript's `String.prototype.includes`). */
  predicate Contains(s: string, t: string)
  {
    exists i :: 0 <= i <= |s| - |t| && OccursAt(s, t, i)
  }

  /** True iff `t` occurs in `s` starting at position `i`. */
  predicate OccursAt(s: string, t: string, i: int)
  {
    0 <= i <= |s| - |t| && s[i..i + |t|] == t
  }

  /** A string contains every one of its suffixes. */
  lemma ContainsSuffix(a: string, b: string)
    ensures Contains(a + b, b)
  {
    assert OccursAt(a + b, b, |a|);
  }

  /** A non-empty pattern whose first character does not occur in `s` cannot occur in `s`. */
  lemma AbsentFirstCharNotContained(s: string, t: string)
    requires |t| > 0 && t[0] !in s
    ensures !Contains(s, t)
  {
    forall i | 0 <= i <= |s| - |t|
      ensures !OccursAt(s, t, i)
    {
      assert s[i..i + |t|][0] == s[i];
    }
  }

  /** The decimal digit character for `d`. */
  function DigitChar(d: nat): (c: char)
    requires d < 10
    ensures '0' <= c <= '9'
  {
    ('0' as int + d) as char
  }

  /** The value of a decimal digit character. */
  function DigitValue(c: char): (d: nat)
    requires '0' <= c <= '9'
    ensures d < 10 && DigitChar(d) == c
  {
    c as int - '0' as int
  }

  predicate IsDigits(s: string)
  {
    forall i :: 0 <= i < |s| ==> '0' <= s[i] <= '9'
  }

  /** Go's `strconv.Itoa` on a non-negative integer: shortest decimal spelling, no sign. */
  function NatToString(n: nat): (s: string)
    ensures |s| >= 1 && IsDigits(s)
    ensures n < 10 <==> |s| == 1
    ensures s[0] != '0' || n == 0
    decreases n
  {
    if n < 10 then [DigitChar(n)] else NatToString(n / 10) + [DigitChar(n % 10)]
  }

  /** Reads a string of decimal digits back as a number; the inverse of `NatToString`. */
  function ParseDigits(s: string): nat
    requires IsDigits(s)
    decreases |s|
  {
    if |s| == 0 then 0 else 10 * ParseDigits(s[..|s| - 1]) + DigitValue(s[|s| - 1])
  }

  /** Decimal spelling round-trips. */
  lemma {:induction false} ParseNatToString(n: nat)
    ensures ParseDigits(NatToString(n)) == n
    decreases n
  {
    var s := NatToString(n);
    if n < 10 {
      assert s[..|s| - 1] == [];
    } else {
      ParseNatToString(n / 10);
      assert s[..|s| - 1] == NatToString(n / 10);
    }
  }

  /** Distinct numbers have distinct decimal spellings. */
  lemma NatToStringInjective(m: nat, n: nat)
    requires NatToString(m) == NatToString(n)
    ensures m == n
  {
    ParseNatToString(m);
    ParseNatToString(n);
  }
}

=== FILE: messages.dfy ===
/** The record exchanged between clients and the server, and the server's per-model store of
    the last message of each kind (model.go). */
module Messages {
  import opened Common

  /** Message kinds as integer tags, as both the client and the server spell them. */
  const AddTag: int := 1
  const RemoveTag: int := 2
  const MoveTag: int := 3
  const RotateTag: int := 4
  const ScaleTag: int := 5

  /** One scene mutation: an integer kind tag, the handle of the model it targets, an optional
      array of numbers (a nil slice / JSON null when absent) and a string. */
  datatype Message = Message(tag: int, handle: string, floats: Option<seq<real>>, text: string)

  /** The zero value of a message; a stored slot holding it is empty. */
  const EmptyMessage: Message := Message(0, "", None, "")

  /** Tag 0 marks a slot that has never been written. */
  predicate IsEmptySlot(m: Message)
  {
    m.tag == 0
  }

  /** The four things the server remembers about a model. */
  datatype Slot = CreateSlot | PositionSlot | RotationSlot | ScaleSlot

  /** The server's record of a model: the last message of each kind it has seen for it. */
  datatype Model = Model(create: Message, position: Message, rotation: Message, scale: Message)

  function Get(m: Model, slot: Slot): Message
  {
    match slot
    case CreateSlot => m.create
    case PositionSlot => m.position
    case RotationSlot => m.rotation
    case ScaleSlot => m.scale
  }

  /** Overwrites one slot of a model. */
  function Put(m: Model, slot: Slot, msg: Message): (r: Model)
    ensures Get(r, slot) == msg
    ensures forall other :: other != slot ==> Get(r, other) == Get(m, other)
  {
    match slot
    case CreateSlot => m.(create := msg)
    case PositionSlot => m.(position := msg)
    case RotationSlot => m.(rotation := msg)
    case ScaleSlot => m.(scale := msg)
  }

  /** A model as Go's `new(Model)` allocates it. */
  function NewModel(): (m: Model)
    ensures forall slot :: Get(m, slot) == EmptyMessage && IsEmptySlot(Get(m, slot))
  {
    Model(EmptyMessage, EmptyMessage, EmptyMessage, EmptyMessage)
  }

  /** The slot the server stores a message of the given tag in, if it stores it at all. */
  function SlotOfTag(tag: int): (r: Option<Slot>)
    ensures r == Some(CreateSlot) <==> tag == AddTag
    ensures r == Some(PositionSlot) <==> tag == MoveTag
    ensures r == Some(RotationSlot) <==> tag == RotateTag
    ensures r == Some(ScaleSlot) <==> tag == ScaleTag
    ensures r == None <==> tag !in {AddTag, MoveTag, RotateTag, ScaleTag}
  {
    if tag == AddTag then Some(CreateSlot)
    else if tag == MoveTag then Some(PositionSlot)
    else if tag == RotateTag then Some(RotationSlot)
    else if tag == ScaleTag then Some(ScaleSlot)
    else None
  }

  /** The tag of the messages a slot stores; the inverse of `SlotOfTag`. */
  function TagOfSlot(slot: Slot): (tag: int)
    ensures SlotOfTag(tag) == Some(slot)
  {
    match slot
    case CreateSlot => AddTag
    case PositionSlot => MoveTag
    case RotationSlot => RotateTag
    case ScaleSlot => ScaleTag
  }

  /** The Add message a client sends or receives: the handle and the colour or file name. */
  function AddMessage(handle: string, text: string): Message
  {
    Message(AddTag, handle, None, text)
  }

  /** The Remove message for a handle: no array, no text. */
  function RemoveMessage(handle: string): Message
  {
    Message(RemoveTag, handle, None, "")
  }

  /** The Move message that sets a handle's position from array `a`. */
  function MoveMessage(handle: string, a: seq<real>): Message
  {
    Message(MoveTag, handle, Some(a), "")
  }
}

=== FILE: relay.dfy ===
/** The server and the clients together (main.go `handleMessages`, `handleConnections`;
    public/scripts/modelMeetup.js `onAddButton2Click`, `receiveMessage`, `addModel`): what a
    client builds for an Add its user requested, and the scene a client ends up with, whether
    it was connected from the start and saw every broadcast or joined late and was sent the
    server's replay. */
module Relay {
  import opened Common
  import opened Messages
  import opened Codec
  import opened Server
  import opened ServerReplay
  import opened Client
  import opened Requests
  import HandleUniqueness

  /** The geometry names the Add dialog offers for primitives. */
  predicate IsPrimitiveChoice(g: string)
  {
    g == "Plane" || g == "Box" || g == "Sphere" || g == "Cone"
  }

  /** Every freed index the server holds is a string of digits. */
  predicate FreeListDigits(s: State)
  {
    forall i :: 0 <= i < |s.removed| ==> IsDigits(s.removed[i])
  }

  /** Under the index bookkeeping invariant, every freed index is a single digit. */
  lemma InvFreeListDigits(s: State, k: nat)
    requires HandleUniqueness.Inv(s, k)
    ensures FreeListDigits(s)
  {
    forall i | 0 <= i < |s.removed|
      ensures IsDigits(s.removed[i])
    {
      assert |s.removed[i]| == 1 && HandleUniqueness.IndexBelow(s.removed[i][0], k);
    }
  }

  /** Along an admissible history from start-up, every freed index is a string of digits. */
  lemma ReachableFreeListDigits(msgs: seq<Message>)
    requires HandleUniqueness.AdmissibleRun(Initial, msgs)
    ensures Runs(Initial, msgs) && FreeListDigits(Run(Initial, msgs))
  {
    HandleUniqueness.InitialInv();
    var k := HandleUniqueness.RunKeepsInv(Initial, 0, msgs);
    InvFreeListDigits(Run(Initial, msgs), k);
  }

  /** A character that is not a digit and occurs neither in the separator nor in the geometry
      name does not occur in a handle built from a digit index. */
  lemma AbsentFromIndexedHandle(index: string, g: string, ch: char)
    requires IsDigits(index) && ch !in g && ch !in Separator && !('0' <= ch <= '9')
    ensures ch !in index + Separator + g
  {
    var h := index + Separator + g;
    forall i | 0 <= i < |h|
      ensures h[i] != ch
    {
      if i < |index| {
        assert h[i] == index[i];
      } else if i < |index| + |Separator| {
        assert h[i] == Separator[i - |index|];
      } else {
        assert h[i] == g[i - |index| - |Separator|];
      }
    }
  }

  /** A digit index and the separator in front of a geometry name change neither which geometry
      the client picks for it nor whether it is loaded from a file. */
  lemma IndexedHandleKeepsKind(index: string, g: string)
    requires IsDigits(index) && IsPrimitiveChoice(g)
    ensures g == "Plane" ==> KindOf(index + Separator + g) == Plane
    ensures g == "Box" ==> KindOf(index + Separator + g) == Box
    ensures g == "Sphere" ==> KindOf(index + Separator + g) == Sphere
    ensures g == "Cone" ==> KindOf(index + Separator + g) == Cone
    ensures !IsAssetHandle(index + Separator + g)
  {
    var h := index + Separator + g;
    ContainsSuffix(index + Separator, g);
    AbsentFromIndexedHandle(index, g, 'J');
    AbsentFirstCharNotContained(h, "JSON");
    if g != "Plane" {
      AbsentFromIndexedHandle(index, g, 'P');
      AbsentFirstCharNotContained(h, "Plane");
    }
    if g == "Sphere" || g == "Cone" {
      AbsentFromIndexedHandle(index, g, 'B');
      AbsentFirstCharNotContained(h, "Box");
    }
    if g == "Cone" {
      AbsentFromIndexedHandle(index, g, 'S');
      AbsentFirstCharNotContained(h, "Sphere");
    }
  }

  /** An Add requested from the dialog, rewritten by the server and broadcast, makes a client
      build the primitive the user chose, in the colour the user chose, under the handle the
      server allocated; a JSON file choice makes the client start loading that file instead. */
  lemma AddArrivesAsChosen(s: State, c: Scene, g: string, file: string, color: string)
    requires FreeListDigits(s)
    requires IsPrimitiveChoice(g) || g == JsonFileChoice
    ensures var m := Decode(AddRequest(g, file, color)).value;
      && CanStep(s, m)
      && var b := Step(s, m).broadcast;
      && var c' := Receive(c, b);
      && (IsPrimitiveChoice(g) ==>
            && b.handle in c'.objects
            && c'.objects[b.handle] == NewObj(PrimitiveShape(KindOf(b.handle), color))
            && KindOf(b.handle) != NoGeometry)
      && (g == JsonFileChoice ==>
            c'.objects == c.objects && c'.loads == c.loads + [Load(b.handle, AssetPath(file))])
  {
    var m := Decode(AddRequest(g, file, color)).value;
    assert m == AddMessage(g, if g == JsonFileChoice then file else color);
    var a := GenerateNewModelHandle(s, g);
    var index := if |s.removed| > 0 then s.removed[0] else NatToString(|s.models|);
    assert a.handle == index + Separator + g;
    assert Step(s, m).broadcast == m.(handle := a.handle);
    if IsPrimitiveChoice(g) {
      IndexedHandleKeepsKind(index, g);
    } else {
      assert OccursAt(a.handle, "JSON", |index| + |Separator|);
    }
  }

  /** The value of a transform as a client shows it after receiving the stored message `msg`:
      the array's first three values when the slot is filled and carries an array, and the value
      it had before otherwise. */
  function Shown(msg: Message, before: Vec3): Vec3
  {
    if !IsEmptySlot(msg) && msg.floats.Some? then Triple(msg.floats.value) else before
  }

  /** The object a stored primitive model stands for: the geometry and colour of its create
      message, and each transform as its stored message shows it on a new object. */
  function Rendered(m: Model, h: string): Obj
  {
    Obj(PrimitiveShape(KindOf(h), m.create.text),
        Shown(m.position, Origin), Shown(m.rotation, Origin), Shown(m.scale, UnitScale))
  }

  /** Client scene `c` shows exactly the server's models: the same handles, each model as its
      stored messages describe it, nothing pending. */
  predicate Mirrors(s: State, c: Scene)
  {
    && c.retries == [] && c.loads == []
    && c.objects.Keys == s.models.Keys
    && forall h :: h in s.models ==> !IsAssetHandle(h) && c.objects[h] == Rendered(s.models[h], h)
  }

  /** Two clients that mirror the same server state have the same scene. */
  lemma MirrorsUnique(s: State, c1: Scene, c2: Scene)
    requires Mirrors(s, c1) && Mirrors(s, c2)
    ensures c1 == c2
  {
    assert c1.objects == c2.objects;
  }

  /** A message after which the server does not crash, whose Add names a primitive, and whose
      Move, Rotate or Scale carries an array. */
  predicate Mirrorable(s: State, msg: Message)
  {
    && CanStep(s, msg)
    && (msg.tag == AddTag ==> !IsAssetHandle(GenerateNewModelHandle(s, msg.handle).handle))
    && (IsTransform(msg.tag) ==> msg.floats.Some?)
  }

  lemma LiveClientAdd(s: State, c: Scene, msg: Message)
    requires Mirrors(s, c) && Mirrorable(s, msg) && msg.tag == AddTag
    ensures Mirrors(Step(s, msg).state, Receive(c, Step(s, msg).broadcast))
  {
    var r := Step(s, msg);
    var h := r.broadcast.handle;
    var c' := Receive(c, r.broadcast);
    assert c'.objects[h] == NewObj(PrimitiveShape(KindOf(h), msg.text));
    assert r.state.models[h].create == r.broadcast;
    assert c'.objects[h] == Rendered(r.state.models[h], h);
  }

  lemma LiveClientRemove(s: State, c: Scene, msg: Message)
    requires Mirrors(s, c) && Mirrorable(s, msg) && msg.tag == RemoveTag
    ensures Mirrors(Step(s, msg).state, Receive(c, Step(s, msg).broadcast))
  {
  }

  lemma LiveClientTransform(s: State, c: Scene, msg: Message)
    requires Mirrors(s, c) && Mirrorable(s, msg) && IsTransform(msg.tag)
    ensures Mirrors(Step(s, msg).state, Receive(c, Step(s, msg).broadcast))
  {
    var r := Step(s, msg);
    var c' := Receive(c, r.broadcast);
    var h := msg.handle;
    var p := PropertyOfTag(msg.tag).value;
    assert c'.objects[h] == SetProperty(c.objects[h], p, Triple(msg.floats.value));
    assert c'.objects[h] == Rendered(r.state.models[h], h);
  }

  /** A client that mirrors the server still mirrors it after receiving the broadcast of the next
      message the server processes. */
  lemma LiveClientStep(s: State, c: Scene, msg: Message)
    requires Mirrors(s, c) && Mirrorable(s, msg)
    ensures Mirrors(Step(s, msg).state, Receive(c, Step(s, msg).broadcast))
  {
    if msg.tag == AddTag {
      LiveClientAdd(s, c, msg);
    } else if msg.tag == RemoveTag {
      LiveClientRemove(s, c, msg);
    } else if IsTransform(msg.tag) {
      LiveClientTransform(s, c, msg);
    }
  }

  predicate MirrorableRun(s: State, msgs: seq<Message>)
    decreases |msgs|
  {
    |msgs| == 0 || (Mirrorable(s, msgs[0]) && MirrorableRun(Step(s, msgs[0]).state, msgs[1..]))
  }

  /** What the server broadcasts while processing `msgs`, in order. */
  function Broadcasts(s: State, msgs: seq<Message>): (b: seq<Message>)
    requires Runs(s, msgs)
    ensures |b| == |msgs|
    decreases |msgs|
  {
    if |msgs| == 0 then [] else [Step(s, msgs[0]).broadcast] + Broadcasts(Step(s, msgs[0]).state, msgs[1..])
  }

  /** A client connected from the start, receiving every broadcast, mirrors the server after
      every message the server processes. */
  lemma {:induction false} LiveClientMirrors(s: State, c: Scene, msgs: seq<Message>)
    requires Mirrors(s, c) && MirrorableRun(s, msgs)
    ensures Runs(s, msgs) && Mirrors(Run(s, msgs), ReceiveAll(c, Broadcasts(s, msgs)))
    decreases |msgs|
  {
    if |msgs| > 0 {
      var r := Step(s, msgs[0]);
      LiveClientStep(s, c, msgs[0]);
      LiveClientMirrors(r.state, Receive(c, r.broadcast), msgs[1..]);
      var bs := Broadcasts(s, msgs);
      assert bs[1..] == Broadcasts(r.state, msgs[1..]);
    }
  }

  /** Receiving `a` and then `b` is receiving `a + b`. */
  lemma {:induction false} ReceiveAllAppend(c: Scene, a: seq<Message>, b: seq<Message>)
    ensures ReceiveAll(c, a + b) == ReceiveAll(ReceiveAll(c, a), b)
    decreases |a|
  {
    if |a| > 0 {
      assert (a + b)[0] == a[0] && (a + b)[1..] == a[1..] + b;
      ReceiveAllAppend(Receive(c, a[0]), a[1..], b);
    } else {
      assert a + b == b;
    }
  }

  /** Filtering out empty slots distributes over concatenation. */
  lemma {:induction false} NonEmptyAppend(a: seq<Message>, b: seq<Message>)
    ensures NonEmpty(a + b) == NonEmpty(a) + NonEmpty(b)
    decreases |a|
  {
    if |a| > 0 {
      assert (a + b)[0] == a[0] && (a + b)[1..] == a[1..] + b;
      NonEmptyAppend(a[1..], b);
      if !IsEmptySlot(a[0]) {
        assert [a[0]] + NonEmpty(a[1..]) + NonEmpty(b) == [a[0]] + (NonEmpty(a[1..]) + NonEmpty(b));
      }
    } else {
      assert a + b == b;
    }
  }

  /** The client property a stored transform slot sets. */
  function SlotProperty(slot: Slot): (p: Property)
    requires slot != CreateSlot
    ensures PropertyOfTag(TagOfSlot(slot)) == Some(p)
  {
    match slot
    case PositionSlot => Position
    case RotationSlot => Rotation
    case ScaleSlot => Scale
  }

  /** A client receiving one stored transform slot of a model it shows: the property takes the
      value the slot shows. */
  lemma ReceiveStoredSlot(d: Scene, m: Model, h: string, slot: Slot)
    requires ModelWellFormed(m, h) && slot != CreateSlot && h in d.objects
    ensures ReceiveAll(d, NonEmpty([Get(m, slot)])) ==
      d.(objects := d.objects[h := SetProperty(d.objects[h], SlotProperty(slot),
                                                Shown(Get(m, slot), GetProperty(d.objects[h], SlotProperty(slot))))])
  {
    var msg := Get(m, slot);
    assert SlotHolds(m, slot, h);
    var o := d.objects[h];
    var p := SlotProperty(slot);
    if IsEmptySlot(msg) {
      assert NonEmpty([msg]) == [];
      assert SetProperty(o, p, GetProperty(o, p)) == o;
      assert d.objects[h := o] == d.objects;
    } else {
      assert NonEmpty([msg]) == [msg];
      assert ReceiveAll(d, [msg]) == ReceiveAll(Receive(d, msg), []);
    }
  }

  /** The replay of a model with a filled create slot: the create message, then each filled
      transform slot. */
  lemma ReplayModelSplit(m: Model)
    requires !IsEmptySlot(m.create)
    ensures ReplayModel(m) == [m.create] + NonEmpty([m.position]) + NonEmpty([m.rotation]) + NonEmpty([m.scale])
  {
    assert [m.create, m.position, m.rotation, m.scale] == [m.create] + [m.position] + [m.rotation] + [m.scale];
    NonEmptyAppend([m.create] + [m.position] + [m.rotation], [m.scale]);
    NonEmptyAppend([m.create] + [m.position], [m.rotation]);
    NonEmptyAppend([m.create], [m.position]);
    assert NonEmpty([m.create]) == [m.create];
  }

  /** Receiving the create message of a stored primitive model adds a new object for it. */
  lemma ReceiveCreate(c: Scene, m: Model, h: string)
    requires ModelWellFormed(m, h) && !IsAssetHandle(h)
    ensures ReceiveAll(c, [m.create]) == c.(objects := c.objects[h := NewObj(PrimitiveShape(KindOf(h), m.create.text))])
  {
    assert SlotHolds(m, CreateSlot, h);
    assert ReceiveAll(c, [m.create]) == ReceiveAll(Receive(c, m.create), []);
  }

  /** Receiving one stored transform slot of a model shown as `o`: the object becomes `o` with
      that property set to the value the slot shows. */
  lemma ReceiveSlotOn(c: Scene, m: Model, h: string, o: Obj, slot: Slot)
    requires ModelWellFormed(m, h) && slot != CreateSlot
    ensures ReceiveAll(c.(objects := c.objects[h := o]), NonEmpty([Get(m, slot)])) ==
      c.(objects := c.objects[h := SetProperty(o, SlotProperty(slot), Shown(Get(m, slot), GetProperty(o, SlotProperty(slot))))])
  {
    var d := c.(objects := c.objects[h := o]);
    ReceiveStoredSlot(d, m, h, slot);
    assert d.objects[h] == o;
  }

  /** Receiving four pieces one after the other is receiving them together. */
  lemma ReceiveAllChain(c: Scene, x: seq<Message>, a: seq<Message>, b: seq<Message>, e: seq<Message>, c1: Scene, c2: Scene, c3: Scene)
    requires ReceiveAll(c, x) == c1 && ReceiveAll(c1, a) == c2 && ReceiveAll(c2, b) == c3
    ensures ReceiveAll(c, x + a + b + e) == ReceiveAll(c3, e)
  {
    ReceiveAllAppend(c, x + a + b, e);
    ReceiveAllAppend(c, x + a, b);
    ReceiveAllAppend(c, x, a);
  }

  /** A new object with the three stored transforms set one after the other is the rendered model. */
  lemma RenderedBySlots(m: Model, h: string)
    ensures SetProperty(SetProperty(SetProperty(NewObj(PrimitiveShape(KindOf(h), m.create.text)),
              Position, Shown(m.position, Origin)), Rotation, Shown(m.rotation, Origin)), Scale, Shown(m.scale, UnitScale))
            == Rendered(m, h)
  {
  }

  /** A client receiving the replay of one stored primitive model shows that model, and nothing
      else about the scene changes. */
  lemma ReplayModelArrives(c: Scene, m: Model, h: string)
    requires ModelWellFormed(m, h) && !IsAssetHandle(h)
    ensures ReceiveAll(c, ReplayModel(m)) == c.(objects := c.objects[h := Rendered(m, h)])
  {
    ReplayModelSplit(m);
    var o1 := NewObj(PrimitiveShape(KindOf(h), m.create.text));
    ReceiveCreate(c, m, h);
    var o2 := SetProperty(o1, Position, Shown(m.position, Origin));
    ReceiveSlotOn(c, m, h, o1, PositionSlot);
    var o3 := SetProperty(o2, Rotation, Shown(m.rotation, Origin));
    ReceiveSlotOn(c, m, h, o2, RotationSlot);
    ReceiveSlotOn(c, m, h, o3, ScaleSlot);
    assert GetProperty(o3, Scale) == UnitScale;
    RenderedBySlots(m, h);
    ReceiveAllChain(c, [m.create], NonEmpty([m.position]), NonEmpty([m.rotation]), NonEmpty([m.scale]),
                    c.(objects := c.objects[h := o1]), c.(objects := c.objects[h := o2]), c.(objects := c.objects[h := o3]));
  }

  /** Every model is a primitive one: no handle names a JSON file. */
  predicate NoAssetHandles(s: State)
  {
    forall h :: h in s.models ==> !IsAssetHandle(h)
  }

  /** A client receiving the replay of the models listed in `order` gains no pending work, and
      then holds exactly the objects it had and those of the listed models. */
  lemma {:induction false} ReplayArrivesShape(s: State, order: seq<string>, c: Scene)
    requires WellFormed(s) && NoAssetHandles(s)
    requires forall i :: 0 <= i < |order| ==> order[i] in s.models
    ensures ReceiveAll(c, Replay(s, order)).retries == c.retries
    ensures ReceiveAll(c, Replay(s, order)).loads == c.loads
    ensures forall h :: h in ReceiveAll(c, Replay(s, order)).objects <==> h in c.objects || h in order
    decreases |order|
  {
    if |order| > 0 {
      var h0 := order[0];
      var c1 := c.(objects := c.objects[h0 := Rendered(s.models[h0], h0)]);
      ReplayModelArrives(c, s.models[h0], h0);
      ReceiveAllAppend(c, ReplayModel(s.models[h0]), Replay(s, order[1..]));
      ReplayArrivesShape(s, order[1..], c1);
      assert forall h :: h in order <==> h == h0 || h in order[1..];
    }
  }

  /** A client receiving the replay of the models listed in `order` shows each of them as stored,
      and keeps every other object it had. */
  lemma {:induction false} ReplayArrivesObject(s: State, order: seq<string>, c: Scene, h: string)
    requires WellFormed(s) && NoAssetHandles(s)
    requires forall i :: 0 <= i < |order| ==> order[i] in s.models
    requires h in order || h in c.objects
    ensures h in ReceiveAll(c, Replay(s, order)).objects
    ensures h in order ==> ReceiveAll(c, Replay(s, order)).objects[h] == Rendered(s.models[h], h)
    ensures h !in order ==> ReceiveAll(c, Replay(s, order)).objects[h] == c.objects[h]
    decreases |order|
  {
    if |order| > 0 {
      var h0 := order[0];
      var c1 := c.(objects := c.objects[h0 := Rendered(s.models[h0], h0)]);
      ReplayModelArrives(c, s.models[h0], h0);
      ReceiveAllAppend(c, ReplayModel(s.models[h0]), Replay(s, order[1..]));
      assert h in order <==> h == h0 || h in order[1..];
      ReplayArrivesObject(s, order[1..], c1, h);
    }
  }

  /** A client that joins late, with an empty scene, and is sent the replay of every model in the
      server's map-iteration order, mirrors the server. */
  lemma LateJoinerMirrors(s: State, order: seq<string>)
    requires WellFormed(s) && NoAssetHandles(s)
    requires forall i :: 0 <= i < |order| ==> order[i] in s.models
    requires forall h :: h in s.models ==> h in order
    ensures Mirrors(s, ReceiveAll(EmptyScene, Replay(s, order)))
  {
    var r := ReceiveAll(EmptyScene, Replay(s, order));
    ReplayArrivesShape(s, order, EmptyScene);
    forall h | h in s.models
      ensures r.objects[h] == Rendered(s.models[h], h)
    {
      ReplayArrivesObject(s, order, EmptyScene, h);
    }
  }

  /** A live client that started empty alongside an empty server and a client that joins after
      the server has processed `msgs` end with the same scene. */
  lemma LateJoinerSeesLiveScene(msgs: seq<Message>, order: seq<string>)
    requires MirrorableRun(Initial, msgs) && Runs(Initial, msgs)
    requires forall i :: 0 <= i < |order| ==> order[i] in Run(Initial, msgs).models
    requires forall h :: h in Run(Initial, msgs).models ==> h in order
    ensures ReceiveAll(EmptyScene, Replay(Run(Initial, msgs), order)) == ReceiveAll(EmptyScene, Broadcasts(Initial, msgs))
  {
    var s := Run(Initial, msgs);
    LiveClientMirrors(Initial, EmptyScene, msgs);
    RunKeepsWellFormed(Initial, msgs);
    LateJoinerMirrors(s, order);
    MirrorsUnique(s, ReceiveAll(EmptyScene, Replay(s, order)), ReceiveAll(EmptyScene, Broadcasts(Initial, msgs)));
  }

  /** A Move without an array, after a Move with one: a live client keeps the first move's
      position (the handler throws before writing), while the server stores the array-less
      message, so a client joining later places the model at the origin. */
  lemma NullArrayMoveDiverges(s: State, c: Scene, h: string, a: seq<real>)
    requires Mirrors(s, c) && h in s.models
    ensures var m1 := Message(MoveTag, h, Some(a), "");
      && var m2 := Message(MoveTag, h, None, "");
      && var s2 := Step(Step(s, m1).state, m2).state;
      && var c2 := Receive(Receive(c, Step(s, m1).broadcast), Step(Step(s, m1).state, m2).broadcast);
      && h in c2.objects && h in s2.models
      && c2.objects[h].position == Triple(a)
      && Rendered(s2.models[h], h).position == Origin
  {
  }
}

=== FILE: replay.dfy ===
/** What a new client is sent (main.go `handleConnections`): the stored messages of every model,
    per model in the order create, position, rotation, scale. */
module ServerReplay {
  import opened Messages
  import opened Server

  /** A stored slot is empty, or holds a message of its own kind addressed to the model. */
  predicate SlotHolds(m: Model, slot: Slot, h: string)
  {
    IsEmptySlot(Get(m, slot)) || (Get(m, slot).tag == TagOfSlot(slot) && Get(m, slot).handle == h)
  }

  /** The shape every stored model has: its create slot is filled, and every slot holds its own kind. */
  predicate ModelWellFormed(m: Model, h: string)
  {
    !IsEmptySlot(m.create) && forall slot :: SlotHolds(m, slot, h)
  }

  predicate WellFormed(s: State)
  {
    forall h :: h in s.models ==> ModelWellFormed(s.models[h], h)
  }

  /** Every message the server processes keeps the stored models well formed. */
  lemma StepKeepsWellFormed(s: State, msg: Message)
    requires WellFormed(s) && CanStep(s, msg)
    ensures WellFormed(Step(s, msg).state)
  {
    var r := Step(s, msg);
    forall h | h in r.state.models
      ensures ModelWellFormed(r.state.models[h], h)
    {
      if msg.tag == AddTag && h == r.broadcast.handle {
        forall slot ensures SlotHolds(r.state.models[h], slot, h) {
          if slot != CreateSlot {
            assert Get(r.state.models[h], slot) == Get(NewModel(), slot);
          }
        }
      } else if IsTransform(msg.tag) && h == msg.handle {
        var slot := SlotOfTag(msg.tag).value;
        assert TagOfSlot(slot) == msg.tag;
        forall other ensures SlotHolds(r.state.models[h], other, h) {
          assert SlotHolds(s.models[h], other, h);
        }
      } else {
        assert r.state.models[h] == s.models[h];
      }
    }
  }

  /** Every state the server reaches from start-up is well formed. */
  lemma {:induction false} RunKeepsWellFormed(s: State, msgs: seq<Message>)
    requires WellFormed(s) && Runs(s, msgs)
    ensures WellFormed(Run(s, msgs))
    decreases |msgs|
  {
    if |msgs| > 0 {
      StepKeepsWellFormed(s, msgs[0]);
      RunKeepsWellFormed(Step(s, msgs[0]).state, msgs[1..]);
    }
  }

  /** Tags strictly increase along `r`. */
  predicate TagsIncrease(r: seq<Message>)
  {
    forall i, j :: 0 <= i < j < |r| ==> r[i].tag < r[j].tag
  }

  /** Along `r`, two messages about the same model come in strictly increasing tag order. */
  predicate TagsIncreasePerHandle(r: seq<Message>)
  {
    forall i, j :: 0 <= i < j < |r| && r[i].handle == r[j].handle ==> r[i].tag < r[j].tag
  }

  /** Every message of `r` about a model is preceded (or is itself) that model's create message. */
  predicate CreatesFirst(s: State, r: seq<Message>)
  {
    forall j :: 0 <= j < |r| ==> r[j].handle in s.models && s.models[r[j].handle].create in r[..j + 1]
  }

  /** Dropping empty slots keeps the relative order of the remaining messages. */
  lemma {:induction false} NonEmptyKeepsTagOrder(msgs: seq<Message>)
    requires forall i, j :: 0 <= i < j < |msgs| && !IsEmptySlot(msgs[i]) && !IsEmptySlot(msgs[j]) ==> msgs[i].tag < msgs[j].tag
    ensures TagsIncrease(NonEmpty(msgs))
    decreases |msgs|
  {
    if |msgs| > 0 {
      var rest := NonEmpty(msgs[1..]);
      NonEmptyKeepsTagOrder(msgs[1..]);
      if IsEmptySlot(msgs[0]) {
        assert NonEmpty(msgs) == rest;
      } else {
        var r := NonEmpty(msgs);
        assert r == [msgs[0]] + rest;
        forall j | 0 <= j < |rest| ensures msgs[0].tag < rest[j].tag {
          assert rest[j] in msgs[1..];
          var k :| 0 <= k < |msgs[1..]| && msgs[1..][k] == rest[j];
          assert msgs[k + 1] == rest[j];
        }
        forall i, j | 0 <= i < j < |r| ensures r[i].tag < r[j].tag {
          assert r[j] == rest[j - 1];
          if i > 0 {
            assert r[i] == rest[i - 1];
          }
        }
      }
    }
  }

  /** A well-formed model replays as its create message first, then its filled slots in
      increasing tag order, all addressed to the model's handle. */
  lemma ReplayModelOrdered(m: Model, h: string)
    requires ModelWellFormed(m, h)
    ensures |ReplayModel(m)| > 0 && ReplayModel(m)[0] == m.create
    ensures forall i :: 0 <= i < |ReplayModel(m)| ==> ReplayModel(m)[i].handle == h
    ensures TagsIncrease(ReplayModel(m))
  {
    assert SlotHolds(m, CreateSlot, h);
    assert SlotHolds(m, PositionSlot, h);
    assert SlotHolds(m, RotationSlot, h);
    assert SlotHolds(m, ScaleSlot, h);
    var msgs := [m.create, m.position, m.rotation, m.scale];
    NonEmptyKeepsTagOrder(msgs);
    var r := ReplayModel(m);
    forall i | 0 <= i < |r| ensures r[i].handle == h {
      assert r[i] in msgs;
    }
  }

  predicate Distinct(order: seq<string>)
  {
    forall i, j :: 0 <= i < j < |order| ==> order[i] != order[j]
  }

  /** Every replayed message names one of the visited models. */
  lemma {:induction false} ReplayNamesVisited(s: State, order: seq<string>)
    requires WellFormed(s)
    requires forall i :: 0 <= i < |order| ==> order[i] in s.models
    ensures forall j :: 0 <= j < |Replay(s, order)| ==> Replay(s, order)[j].handle in order
    decreases |order|
  {
    if |order| > 0 {
      var a := ReplayModel(s.models[order[0]]);
      var b := Replay(s, order[1..]);
      ReplayModelOrdered(s.models[order[0]], order[0]);
      ReplayNamesVisited(s, order[1..]);
      var r := Replay(s, order);
      assert r == a + b;
      forall j | 0 <= j < |r| ensures r[j].handle in order {
        if j >= |a| {
          assert r[j] == b[j - |a|];
          var k :| 0 <= k < |order[1..]| && order[1..][k] == r[j].handle;
          assert order[k + 1] == r[j].handle;
        } else {
          assert r[j] == a[j];
        }
      }
    }
  }

  /** Within one model's replay, the create message comes first. */
  lemma CreateLeadsHead(m: Model, h: string, b: seq<Message>, j: int)
    requires ModelWellFormed(m, h) && 0 <= j < |ReplayModel(m)|
    ensures (ReplayModel(m) + b)[j].handle == h
    ensures m.create in (ReplayModel(m) + b)[..j + 1]
  {
    ReplayModelOrdered(m, h);
    var r := ReplayModel(m) + b;
    assert r[j] == ReplayModel(m)[j];
    assert r[..j + 1][0] == r[0] == m.create;
  }

  /** A message that precedes position `jb` of `b` precedes position `|a| + jb` of `a + b`. */
  lemma PrecedesInTail(a: seq<Message>, b: seq<Message>, msg: Message, jb: int)
    requires 0 <= jb < |b| && msg in b[..jb + 1]
    ensures msg in (a + b)[..|a| + jb + 1]
  {
    assert (a + b)[..|a| + jb + 1] == a + b[..jb + 1];
  }

  /** In the replay, a model's create message precedes every other message about it. */
  lemma {:induction false} ReplayCreatesFirst(s: State, order: seq<string>)
    requires WellFormed(s)
    requires forall i :: 0 <= i < |order| ==> order[i] in s.models
    ensures CreatesFirst(s, Replay(s, order))
    decreases |order|
  {
    if |order| > 0 {
      var h := order[0];
      var a := ReplayModel(s.models[h]);
      var b := Replay(s, order[1..]);
      ReplayCreatesFirst(s, order[1..]);
      var r := Replay(s, order);
      assert r == a + b;
      forall j | 0 <= j < |r|
        ensures r[j].handle in s.models && s.models[r[j].handle].create in r[..j + 1]
      {
        if j < |a| {
          CreateLeadsHead(s.models[h], h, b, j);
        } else {
          var jb := j - |a|;
          assert r[j] == b[jb];
          PrecedesInTail(a, b, s.models[b[jb].handle].create, jb);
        }
      }
    }
  }

  /** Two sequences with per-handle increasing tags and no handle in common keep the property
      when concatenated. */
  lemma TagsIncreaseAppend(a: seq<Message>, b: seq<Message>)
    requires TagsIncreasePerHandle(a) && TagsIncreasePerHandle(b)
    requires forall i, j :: 0 <= i < |a| && 0 <= j < |b| ==> a[i].handle != b[j].handle
    ensures TagsIncreasePerHandle(a + b)
  {
    var r := a + b;
    forall i, j | 0 <= i < j < |r| && r[i].handle == r[j].handle
      ensures r[i].tag < r[j].tag
    {
      if j < |a| {
        assert r[i] == a[i] && r[j] == a[j];
      } else if i >= |a| {
        assert r[i] == b[i - |a|] && r[j] == b[j - |a|];
      } else {
        assert false;
      }
    }
  }

  /** In the replay, two messages about the same model come in increasing tag order: create,
      then position, then rotation, then scale. */
  lemma {:induction false} ReplayTagsIncrease(s: State, order: seq<string>)
    requires WellFormed(s) && Distinct(order)
    requires forall i :: 0 <= i < |order| ==> order[i] in s.models
    ensures TagsIncreasePerHandle(Replay(s, order))
    decreases |order|
  {
    if |order| > 0 {
      var h := order[0];
      var a := ReplayModel(s.models[h]);
      var b := Replay(s, order[1..]);
      ReplayModelOrdered(s.models[h], h);
      ReplayNamesVisited(s, order[1..]);
      ReplayTagsIncrease(s, order[1..]);
      assert h !in order[1..];
      TagsIncreaseAppend(a, b);
      assert Replay(s, order) == a + b;
    }
  }
}

=== FILE: requests.dfy ===
/** What the client's buttons send (public/scripts/modelMeetup.js `onAddButton2Click`,
    `onRemoveYesClick`, `onUpdateButtonClick`, `sendMessage`): the JSON object handed to
    `JSON.stringify`, and the message the server's decoder reads back from it. */
module Requests {
  import opened Common
  import opened Messages
  import opened Codec
  import opened Client
  import Server

  /** The geometry choice that makes the Add dialog send a file name instead of a colour. */
  const JsonFileChoice: string := "JSON File"

  /** A text field after `parseFloat`: a number, or NaN when the text does not start with one. */
  datatype Input = Parsed(value: real) | NotANumber

  /** `JSON.stringify` writes NaN as `null`. */
  function InputJson(x: Input): (j: Json)
    ensures x.NotANumber? <==> j == JNull
    ensures x.Parsed? ==> j == JNum(x.value)
  {
    match x
    case Parsed(v) => JNum(v)
    case NotANumber => JNull
  }

  /** The number the server ends up with for an input: a `null` array element leaves Go's zero value. */
  function Received(x: Input): real
  {
    match x
    case Parsed(v) => v
    case NotANumber => 0.0
  }

  /** The object `sendMessage` builds; a JavaScript `null` becomes JSON `null`. */
  function Request(tag: int, handle: string, floats: Json, text: Json): (o: JsonObject)
    ensures o.Keys == {TypeField, HandleField, FloatsField, TextField}
    ensures o[TypeField] == JNum(tag as real) && o[HandleField] == JStr(handle)
    ensures o[FloatsField] == floats && o[TextField] == text
  {
    Object(JNum(tag as real), JStr(handle), floats, text)
  }

  /** Whatever message a client sends, the server reads back exactly that message: the object
      `sendMessage` builds is the one Go's encoder would write for it. */
  lemma RequestDecodes(m: Message)
    ensures Decode(Request(m.tag, m.handle,
                           match m.floats { case None => JNull case Some(xs) => JArr(EncodeFloats(xs)) },
                           JStr(m.text))) == Success(m)
  {
    assert Request(m.tag, m.handle,
                   match m.floats { case None => JNull case Some(xs) => JArr(EncodeFloats(xs)) },
                   JStr(m.text)) == Encode(m);
    RoundTrip(m);
  }

  /** The Add button of the dialog: the geometry name as handle, no array, and the file name for
      a JSON model or the colour for a primitive. The server decodes it into an Add message. */
  function AddRequest(geometry: string, fileName: string, color: string): (o: JsonObject)
    ensures Decode(o) == Success(Message(AddTag, geometry, None, if geometry == JsonFileChoice then fileName else color))
  {
    Request(AddTag, geometry, JNull, JStr(if geometry == JsonFileChoice then fileName else color))
  }

  /** The Yes button of the Remove dialog: the selected handle, no array, no text; the server
      reads the missing text as the empty string. */
  function RemoveRequest(handle: string): (o: JsonObject)
    ensures Decode(o) == Success(Message(RemoveTag, handle, None, ""))
  {
    Request(RemoveTag, handle, JNull, JNull)
  }

  /** The tag the Update button uses for a property; the inverse of `Client.PropertyOfTag`. */
  function PropertyTag(p: Property): (tag: int)
    ensures PropertyOfTag(tag) == Some(p)
  {
    match p
    case Position => MoveTag
    case Rotation => RotateTag
    case Scale => ScaleTag
  }

  /** The Update button: nothing is sent until a property has been selected; otherwise the tag of
      that property, the selected handle, and the three parsed inputs. The server decodes it with
      every NaN input turned into 0. */
  function UpdateRequest(property: Option<Property>, handle: string, x: Input, y: Input, z: Input): (o: Option<JsonObject>)
    ensures o.None? <==> property.None?
    ensures o.Some? ==>
      Decode(o.value) == Success(Message(PropertyTag(property.value), handle,
                                         Some([Received(x), Received(y), Received(z)]), ""))
  {
    match property
    case None => None
    case Some(p) =>
      var js := [InputJson(x), InputJson(y), InputJson(z)];
      var o := Request(PropertyTag(p), handle, JArr(js), JNull);
      assert Field(o, FloatsField) == JArr(js);
      assert DecodeFloats(js).Some?;
      assert DecodeFloats(js).value == [Received(x), Received(y), Received(z)];
      Some(o)
  }

  /** `sendMessage`: the object is queued on the socket when the page has one, and dropped otherwise. */
  function Send(hasSocket: bool, outbox: seq<JsonObject>, o: JsonObject): (r: seq<JsonObject>)
    ensures hasSocket ==> r == outbox + [o]
    ensures !hasSocket ==> r == outbox
  {
    if hasSocket then outbox + [o] else outbox
  }

  /** The selection the page starts with, before any model is chosen. */
  const NoSelection: string := "Choose a model"

  /** Update is not guarded against the initial selection: pressing it before choosing a model
      sends a transform for the handle "Choose a model", on which the server dereferences a
      missing model unless some model carries that very handle. */
  lemma UpdateWithoutSelectionStopsServer(s: Server.State, p: Property, x: Input, y: Input, z: Input)
    requires NoSelection !in s.models
    ensures UpdateRequest(Some(p), NoSelection, x, y, z).Some?
    ensures Decode(UpdateRequest(Some(p), NoSelection, x, y, z).value).Success?
    ensures !Server.CanStep(s, Decode(UpdateRequest(Some(p), NoSelection, x, y, z).value).value)
  {
    var m := Decode(UpdateRequest(Some(p), NoSelection, x, y, z).value).value;
    assert Server.IsTransform(m.tag);
  }
}

=== FILE: server.dfy ===
/** The relay server's scene bookkeeping (main.go): the map from model handle to the stored
    messages of that model, the FIFO list of freed indices, the handle allocator, the
    per-message update applied before each broadcast, and the replay to a new client. */
module Server {
  import opened Common
  import opened Messages

  /** `allModels` and `removedIndices`. */
  datatype State = State(models: map<string, Model>, removed: seq<string>)

  /** The server at start-up: no models, no freed indices. */
  const Initial: State := State(map[], [])

  /** What separates an index from a geometry name in a handle. */
  const Separator: string := " - "

  /** A handle produced by the allocator, with the state the allocator leaves behind. */
  datatype Allocation = Allocation(handle: string, state: State)

  /** `GenerateNewModelHandle`: prefix the geometry name with the oldest freed index, or with the
      current number of models when no index is free. */
  function GenerateNewModelHandle(s: State, geometry: string): (r: Allocation)
    ensures r.state.models == s.models
    ensures |s.removed| == 0 ==> r.handle == NatToString(|s.models|) + Separator + geometry && r.state.removed == []
    ensures |s.removed| > 0 ==> r.handle == s.removed[0] + Separator + geometry && r.state.removed == s.removed[1..]
    ensures |r.handle| >= |Separator + geometry| && r.handle[|r.handle| - |Separator + geometry|..] == Separator + geometry
    ensures Contains(r.handle, geometry)
  {
    var index := if |s.removed| > 0 then s.removed[0] else NatToString(|s.models|);
    var remaining := if |s.removed| > 0 then s.removed[1..] else s.removed;
    assert (index + Separator) + geometry == index + (Separator + geometry);
    ContainsSuffix(index + Separator, geometry);
    Allocation(index + Separator + geometry, State(s.models, remaining))
  }

  /** What the server sends to every connected client after processing a message, and its new state. */
  datatype Outcome = Outcome(state: State, broadcast: Message)

  /** The tags whose message overwrites one stored slot of an existing model. */
  predicate IsTransform(tag: int)
  {
    tag == MoveTag || tag == RotateTag || tag == ScaleTag
  }

  /** When `handleMessages` does not crash: a Move, Rotate or Scale must name a stored model (the
      code writes through the map entry, which is nil for an absent handle), and a Remove whose
      handle is empty must leave no model behind (the code reads the handle's first byte). */
  predicate CanStep(s: State, msg: Message)
  {
    && (IsTransform(msg.tag) ==> msg.handle in s.models)
    && (msg.tag == RemoveTag && msg.handle == "" ==> s.models.Keys <= {""})
  }

  /** The freed index a Remove records: the handle's first character only. */
  function FirstCharIndex(handle: string): (index: string)
    requires |handle| > 0
    ensures |index| == 1 && index[0] == handle[0]
  {
    [handle[0]]
  }

  /** One iteration of `handleMessages`: update the state for the received message and return
      the message to broadcast. */
  function Step(s: State, msg: Message): (r: Outcome)
    requires CanStep(s, msg)
    // Add: rewrite the handle, store a fresh model whose create slot is the rewritten message.
    ensures msg.tag == AddTag ==>
      var a := GenerateNewModelHandle(s, msg.handle);
      && r.broadcast == msg.(handle := a.handle)
      && r.state.removed == a.state.removed
      && r.state.models.Keys == s.models.Keys + {a.handle}
      && r.state.models[a.handle] == Put(NewModel(), CreateSlot, r.broadcast)
      && (forall h :: h in s.models && h != a.handle ==> r.state.models[h] == s.models[h])
    // Remove: forget the model; clear the free list when nothing is left, else record the index.
    ensures msg.tag == RemoveTag ==>
      && r.broadcast == msg
      && r.state.models.Keys == s.models.Keys - {msg.handle}
      && (forall h :: h in r.state.models ==> r.state.models[h] == s.models[h])
      && (|r.state.models| == 0 ==> r.state.removed == [])
      && (|r.state.models| > 0 ==> |msg.handle| > 0 && r.state.removed == s.removed + [[msg.handle[0]]])
    // Move, Rotate, Scale: overwrite the matching slot of that model, and nothing else.
    ensures IsTransform(msg.tag) ==>
      && r.broadcast == msg
      && r.state.removed == s.removed
      && r.state.models.Keys == s.models.Keys
      && r.state.models[msg.handle] == Put(s.models[msg.handle], SlotOfTag(msg.tag).value, msg)
      && (forall h :: h in s.models && h != msg.handle ==> r.state.models[h] == s.models[h])
    // Any other tag: relayed unchanged, state untouched.
    ensures msg.tag !in {AddTag, RemoveTag, MoveTag, RotateTag, ScaleTag} ==> r == Outcome(s, msg)
  {
    if msg.tag == AddTag then
      var a := GenerateNewModelHandle(s, msg.handle);
      var out := msg.(handle := a.handle);
      Outcome(State(a.state.models[a.handle := Put(NewModel(), CreateSlot, out)], a.state.removed), out)
    else if msg.tag == RemoveTag then
      var models := s.models - {msg.handle};
      if |models| == 0 then Outcome(State(models, []), msg)
      else
        Outcome(State(models, s.removed + [FirstCharIndex(msg.handle)]), msg)
    else if IsTransform(msg.tag) then
      var slot := SlotOfTag(msg.tag).value;
      Outcome(State(s.models[msg.handle := Put(s.models[msg.handle], slot, msg)], s.removed), msg)
    else
      Outcome(s, msg)
  }

  /** True iff the server processes every message of `msgs` in turn from `s` without crashing. */
  predicate Runs(s: State, msgs: seq<Message>)
    decreases |msgs|
  {
    |msgs| == 0 || (CanStep(s, msgs[0]) && Runs(Step(s, msgs[0]).state, msgs[1..]))
  }

  /** The state after `handleMessages` has processed `msgs` in order. */
  function Run(s: State, msgs: seq<Message>): State
    requires Runs(s, msgs)
    decreases |msgs|
  {
    if |msgs| == 0 then s else Run(Step(s, msgs[0]).state, msgs[1..])
  }

  /** The slots of a model, non-empty ones only, in the order create, position, rotation, scale. */
  function ReplayModel(m: Model): (r: seq<Message>)
    ensures |r| <= 4
    ensures forall i :: 0 <= i < |r| ==> !IsEmptySlot(r[i])
    ensures forall slot :: !IsEmptySlot(Get(m, slot)) ==> Get(m, slot) in r
    ensures forall msg :: msg in r ==> msg in [m.create, m.position, m.rotation, m.scale]
  {
    NonEmpty([m.create, m.position, m.rotation, m.scale])
  }

  /** The messages of `msgs` whose tag is not 0, in their original order. */
  function NonEmpty(msgs: seq<Message>): (r: seq<Message>)
    ensures |r| <= |msgs|
    ensures forall msg :: msg in r <==> msg in msgs && !IsEmptySlot(msg)
  {
    if |msgs| == 0 then []
    else if IsEmptySlot(msgs[0]) then NonEmpty(msgs[1..])
    else [msgs[0]] + NonEmpty(msgs[1..])
  }

  /** The initial scene a new client receives (`handleConnections`), visiting the models in the
      given order; Go's map iteration picks the order, so it is a parameter. */
  function Replay(s: State, order: seq<string>): (r: seq<Message>)
    requires forall i :: 0 <= i < |order| ==> order[i] in s.models
    ensures forall msg :: msg in r ==> !IsEmptySlot(msg)
    ensures forall i, slot :: 0 <= i < |order| && !IsEmptySlot(Get(s.models[order[i]], slot)) ==>
              Get(s.models[order[i]], slot) in r
  {
    if |order| == 0 then []
    else ReplayModel(s.models[order[0]]) + Replay(s, order[1..])
  }
}

=== FILE: uniqueness.dfy ===
/** Handle uniqueness on the server (main.go:42-52, 141-158): the allocator never hands out a
    handle that names a live model, provided every Remove names a live model and no index
    reaches 10. Remove records only the handle's first character as the freed index, so both
    conditions are needed; the last two lemmas show each one failing. */
module HandleUniqueness {
  import opened Common
  import opened Messages
  import opened Server

  /** `c` is one of the index characters '0' .. the digit for k - 1. */
  predicate IndexBelow(c: char, k: nat)
  {
    '0' as int <= c as int < '0' as int + k
  }

  /** The indices in use: the first character of every live handle. */
  function LiveIndices(s: State): set<char>
  {
    set h | h in s.models && |h| > 0 :: h[0]
  }

  /** Every live index and every freed index is below `k`, and there are `k` of them in all. */
  predicate Bounded(s: State, k: nat)
  {
    && k <= 10
    && |s.models| + |s.removed| == k
    && (forall h :: h in s.models ==> |h| > 0 && IndexBelow(h[0], k))
    && (forall i :: 0 <= i < |s.removed| ==> |s.removed[i]| == 1 && IndexBelow(s.removed[i][0], k))
  }

  /** No two live handles share an index. */
  predicate LiveDistinct(s: State)
  {
    forall h1, h2 :: h1 in s.models && h2 in s.models && |h1| > 0 && |h2| > 0 && h1[0] == h2[0] ==> h1 == h2
  }

  /** No index is freed twice, and no freed index is in use. */
  predicate FreeListDisjoint(s: State)
  {
    && (forall i, j :: 0 <= i < j < |s.removed| ==> s.removed[i] != s.removed[j])
    && (forall i, h :: 0 <= i < |s.removed| && |s.removed[i]| > 0 && h in s.models && |h| > 0 ==> s.removed[i][0] != h[0])
  }

  /** Every index below `k` is either in use or freed. */
  predicate Covers(s: State, k: nat)
    requires k <= 10
  {
    forall d :: 0 <= d < k ==> DigitChar(d) in LiveIndices(s) || [DigitChar(d)] in s.removed
  }

  /** The bookkeeping invariant, for the number `k` of indices handed out since the scene was
      last empty: live indices and freed indices are each duplicate-free, are disjoint, and
      together are exactly the indices 0 .. k-1. */
  predicate Inv(s: State, k: nat)
  {
    Bounded(s, k) && LiveDistinct(s) && FreeListDisjoint(s) && Covers(s, k)
  }

  /** The two conditions under which the code keeps handles unique, on top of not crashing:
      a Remove names a live model, and an Add that takes a fresh index takes one below 10. */
  predicate Admissible(s: State, msg: Message)
  {
    && CanStep(s, msg)
    && (msg.tag == RemoveTag ==> msg.handle in s.models)
    && (msg.tag == AddTag && |s.removed| == 0 ==> |s.models| < 10)
  }

  /** How many indices are in play after the step. */
  function NextBound(s: State, k: nat, msg: Message): nat
  {
    if msg.tag == AddTag && |s.removed| == 0 then k + 1
    else if msg.tag == RemoveTag && s.models.Keys <= {msg.handle} then 0
    else k
  }

  lemma InitialInv()
    ensures Inv(Initial, 0)
  {
  }

  lemma SingleDigit(n: nat)
    requires n < 10
    ensures NatToString(n) == [DigitChar(n)]
  {
  }

  /** An admissible Add takes an index that is not in use, so its handle is not live. */
  lemma AddIsFresh(s: State, k: nat, msg: Message)
    requires Inv(s, k) && Admissible(s, msg) && msg.tag == AddTag
    ensures var a := GenerateNewModelHandle(s, msg.handle);
      && |a.handle| > 0
      && a.handle[0] !in LiveIndices(s)
      && a.handle !in s.models
      && (|s.removed| == 0 ==> a.handle[0] == DigitChar(k))
      && (|s.removed| > 0 ==> a.handle[0] == s.removed[0][0])
  {
    var a := GenerateNewModelHandle(s, msg.handle);
    if |s.removed| == 0 {
      SingleDigit(|s.models|);
      assert a.handle[0] == DigitChar(k);
    } else {
      assert |s.removed[0]| == 1;
      assert a.handle[0] == s.removed[0][0];
    }
  }

  /** An Add that takes a fresh index (no freed index is waiting) keeps the invariant. */
  lemma AddFreshKeepsInv(s: State, k: nat, msg: Message)
    requires Inv(s, k) && Admissible(s, msg) && msg.tag == AddTag && |s.removed| == 0
    ensures Inv(Step(s, msg).state, k + 1)
  {
    AddIsFresh(s, k, msg);
    var r := Step(s, msg);
    var t := r.state;
    var nh := r.broadcast.handle;
    var c := nh[0];
    assert t.models.Keys == s.models.Keys + {nh};
    assert |t.models| == |s.models| + 1;
    assert LiveIndices(t) == LiveIndices(s) + {c};
    assert Bounded(t, k + 1);
    assert LiveDistinct(t);
    forall d | 0 <= d < k + 1
      ensures DigitChar(d) in LiveIndices(t) || [DigitChar(d)] in t.removed
    {
      if d < k {
        assert DigitChar(d) in LiveIndices(s);
      }
    }
  }

  /** The facts about an Add that reuses the oldest freed index, as the invariant proofs need them. */
  predicate ReusesFront(s: State, t: State, nh: string)
  {
    && |s.removed| > 0 && |nh| > 0 && |s.removed[0]| == 1 && nh[0] == s.removed[0][0] && nh !in s.models
    && t.models.Keys == s.models.Keys + {nh} && t.removed == s.removed[1..]
  }

  lemma ReuseKeepsBounded(s: State, t: State, k: nat, nh: string)
    requires Bounded(s, k) && ReusesFront(s, t, nh)
    ensures Bounded(t, k)
  {
    assert |t.models.Keys| == |s.models.Keys| + 1;
    forall i | 0 <= i < |t.removed|
      ensures |t.removed[i]| == 1 && IndexBelow(t.removed[i][0], k)
    {
      assert t.removed[i] == s.removed[i + 1];
    }
  }

  lemma ReuseKeepsLiveDistinct(s: State, t: State, k: nat, nh: string)
    requires LiveDistinct(s) && FreeListDisjoint(s) && ReusesFront(s, t, nh)
    ensures LiveDistinct(t)
  {
    forall h1, h2 | h1 in t.models && h2 in t.models && |h1| > 0 && |h2| > 0 && h1[0] == h2[0]
      ensures h1 == h2
    {
      if h1 != nh && h2 != nh {
        assert h1 in s.models && h2 in s.models;
      }
    }
  }

  lemma ReuseKeepsDisjoint(s: State, t: State, k: nat, nh: string)
    requires Bounded(s, k) && FreeListDisjoint(s) && ReusesFront(s, t, nh)
    ensures FreeListDisjoint(t)
  {
    forall i, j | 0 <= i < j < |t.removed|
      ensures t.removed[i] != t.removed[j]
    {
      assert t.removed[i] == s.removed[i + 1] && t.removed[j] == s.removed[j + 1];
    }
    forall i, h | 0 <= i < |t.removed| && |t.removed[i]| > 0 && h in t.models && |h| > 0
      ensures t.removed[i][0] != h[0]
    {
      assert t.removed[i] == s.removed[i + 1];
      if h == nh {
        assert s.removed[i + 1] != s.removed[0];
        assert |s.removed[i + 1]| == 1;
        assert s.removed[i + 1] == [s.removed[i + 1][0]];
        assert s.removed[0] == [s.removed[0][0]];
      } else {
        assert h in s.models;
      }
    }
  }

  lemma ReuseKeepsCovers(s: State, t: State, k: nat, nh: string)
    requires k <= 10 && Covers(s, k) && ReusesFront(s, t, nh)
    ensures Covers(t, k)
  {
    forall d | 0 <= d < k
      ensures DigitChar(d) in LiveIndices(t) || [DigitChar(d)] in t.removed
    {
      if [DigitChar(d)] in s.removed && [DigitChar(d)] != s.removed[0] {
        var i :| 0 <= i < |s.removed| && s.removed[i] == [DigitChar(d)];
        assert t.removed[i - 1] == [DigitChar(d)];
      } else if [DigitChar(d)] == s.removed[0] {
        assert nh in t.models;
        assert DigitChar(d) == nh[0];
      } else {
        assert DigitChar(d) in LiveIndices(s);
        var h :| h in s.models && |h| > 0 && h[0] == DigitChar(d);
        assert h in t.models;
      }
    }
  }

  /** An Add that reuses the oldest freed index keeps the invariant. */
  lemma AddReusedKeepsInv(s: State, k: nat, msg: Message)
    requires Inv(s, k) && Admissible(s, msg) && msg.tag == AddTag && |s.removed| > 0
    ensures Inv(Step(s, msg).state, k)
  {
    AddIsFresh(s, k, msg);
    var r := Step(s, msg);
    assert |s.removed[0]| == 1;
    var nh := r.broadcast.handle;
    ReuseKeepsBounded(s, r.state, k, nh);
    ReuseKeepsLiveDistinct(s, r.state, k, nh);
    ReuseKeepsDisjoint(s, r.state, k, nh);
    ReuseKeepsCovers(s, r.state, k, nh);
  }

  lemma RemoveKeepsInv(s: State, k: nat, msg: Message)
    requires Inv(s, k) && Admissible(s, msg) && msg.tag == RemoveTag
    ensures Inv(Step(s, msg).state, NextBound(s, k, msg))
  {
    var t := Step(s, msg).state;
    var k' := NextBound(s, k, msg);
    var h := msg.handle;
    var c := h[0];
    assert t.models.Keys == s.models.Keys - {h};
    assert |t.models.Keys| == |s.models.Keys| - 1;
    if s.models.Keys <= {h} {
      assert t.models == map[];
    } else {
      assert |t.models| > 0;
      assert t.removed == s.removed + [[c]];
      forall h2 | h2 in s.models && h2 != h
        ensures h2[0] != c
      {
      }
      assert LiveIndices(t) == LiveIndices(s) - {c};
      assert Bounded(t, k');
      forall d | 0 <= d < k'
        ensures DigitChar(d) in LiveIndices(t) || [DigitChar(d)] in t.removed
      {
        if DigitChar(d) == c {
          assert t.removed[|s.removed|] == [c];
        } else if [DigitChar(d)] in s.removed {
          var i :| 0 <= i < |s.removed| && s.removed[i] == [DigitChar(d)];
          assert t.removed[i] == [DigitChar(d)];
        }
      }
      forall i | 0 <= i < |s.removed|
        ensures s.removed[i] != [c]
      {
      }
      assert FreeListDisjoint(t);
    }
  }

  /** Every admissible message keeps the invariant, with the bound `NextBound`. */
  lemma StepKeepsInv(s: State, k: nat, msg: Message)
    requires Inv(s, k) && Admissible(s, msg)
    ensures Inv(Step(s, msg).state, NextBound(s, k, msg))
    ensures msg.tag == AddTag ==> Step(s, msg).broadcast.handle !in s.models
  {
    var t := Step(s, msg).state;
    if msg.tag == AddTag {
      AddIsFresh(s, k, msg);
      if |s.removed| == 0 {
        AddFreshKeepsInv(s, k, msg);
      } else {
        AddReusedKeepsInv(s, k, msg);
      }
    } else if msg.tag == RemoveTag {
      RemoveKeepsInv(s, k, msg);
    } else if IsTransform(msg.tag) {
      assert t.models.Keys == s.models.Keys;
      assert LiveIndices(t) == LiveIndices(s);
    }
  }

  /** True iff every message of `msgs` is admissible in the state the server is in when it
      processes it. */
  predicate AdmissibleRun(s: State, msgs: seq<Message>)
    decreases |msgs|
  {
    |msgs| == 0 || (Admissible(s, msgs[0]) && AdmissibleRun(Step(s, msgs[0]).state, msgs[1..]))
  }

  lemma {:induction false} AdmissibleRunRuns(s: State, msgs: seq<Message>)
    requires AdmissibleRun(s, msgs)
    ensures Runs(s, msgs)
    decreases |msgs|
  {
    if |msgs| > 0 {
      AdmissibleRunRuns(Step(s, msgs[0]).state, msgs[1..]);
    }
  }

  /** Along an admissible run the invariant holds for some bound. */
  lemma {:induction false} RunKeepsInv(s: State, k: nat, msgs: seq<Message>) returns (k': nat)
    requires Inv(s, k) && AdmissibleRun(s, msgs)
    ensures Runs(s, msgs) && Inv(Run(s, msgs), k')
    decreases |msgs|
  {
    AdmissibleRunRuns(s, msgs);
    if |msgs| == 0 {
      k' := k;
    } else {
      StepKeepsInv(s, k, msgs[0]);
      k' := RunKeepsInv(Step(s, msgs[0]).state, NextBound(s, k, msgs[0]), msgs[1..]);
    }
  }

  /** The uniqueness claim of the allocator: after any admissible history, an admissible Add
      never produces the handle of a live model. */
  lemma AddedHandleNeverLive(msgs: seq<Message>, add: Message)
    requires AdmissibleRun(Initial, msgs)
    requires Runs(Initial, msgs) && Admissible(Run(Initial, msgs), add) && add.tag == AddTag
    ensures Step(Run(Initial, msgs), add).broadcast.handle !in Run(Initial, msgs).models
  {
    InitialInv();
    var k := RunKeepsInv(Initial, 0, msgs);
    StepKeepsInv(Run(Initial, msgs), k, add);
  }

  /** The colour of the Adds below; the server does not read an Add's text, so any would do. */
  const White: string := "0xffffff"

  /** Three Adds of a box from start-up give the handles "0 - Box", "1 - Box", "2 - Box". */
  lemma ThreeBoxes()
    ensures Runs(Initial, [AddMessage("Box", White), AddMessage("Box", White), AddMessage("Box", White)])
    ensures Run(Initial, [AddMessage("Box", White), AddMessage("Box", White), AddMessage("Box", White)]).models.Keys == {"0 - Box", "1 - Box", "2 - Box"}
    ensures Run(Initial, [AddMessage("Box", White), AddMessage("Box", White), AddMessage("Box", White)]).removed == []
  {
    var add := AddMessage("Box", White);
    assert NatToString(0) == "0" && NatToString(1) == "1" && NatToString(2) == "2";
    assert "0" + Separator + "Box" == "0 - Box";
    assert "1" + Separator + "Box" == "1 - Box";
    assert "2" + Separator + "Box" == "2 - Box";
    assert "0 - Box"[0] != "1 - Box"[0];
    var r1 := Step(Initial, add);
    assert r1.broadcast.handle == "0 - Box";
    assert r1.state.models.Keys == {"0 - Box"};
    assert |r1.state.models| == 1;
    var r2 := Step(r1.state, add);
    assert r2.broadcast.handle == "1 - Box";
    assert r2.state.models.Keys == {"0 - Box", "1 - Box"};
    assert |r2.state.models| == 2;
    var r3 := Step(r2.state, add);
    assert r3.broadcast.handle == "2 - Box";
    assert r3.state.models.Keys == {"0 - Box", "1 - Box", "2 - Box"};
    var msgs := [add, add, add];
    assert msgs[1..] == [add, add];
    assert msgs[1..][1..] == [add];
    assert msgs[1..][1..][1..] == [];
    assert Runs(r2.state, [add]) && Run(r2.state, [add]) == r3.state;
    assert Runs(r1.state, [add, add]) && Run(r1.state, [add, add]) == r3.state;
  }

  /** Without the live-Remove condition: when two clients remove the same model, the server
      frees its index twice, and two later Adds receive the same handle; the second replaces
      the first model, so the scene gains no model. */
  lemma DoubleRemoveReissuesHandle(s: State)
    requires s.models.Keys == {"0 - Box", "1 - Box", "2 - Box"} && s.removed == []
    ensures var s4 := Step(s, RemoveMessage("1 - Box")).state;
      var s5 := Step(s4, RemoveMessage("1 - Box")).state;
      var s6 := Step(s5, AddMessage("Box", White)).state;
      && !Admissible(s4, RemoveMessage("1 - Box"))
      && s5.removed == ["1", "1"]
      && Step(s5, AddMessage("Box", White)).broadcast.handle == "1 - Box"
      && Step(s6, AddMessage("Box", White)).broadcast.handle == "1 - Box"
      && "1 - Box" in s6.models
      && |Step(s6, AddMessage("Box", White)).state.models| == |s6.models|
  {
    assert "1" + Separator + "Box" == "1 - Box";
    assert "0 - Box"[0] != "2 - Box"[0];
    assert ["1 - Box"[0]] == "1";
    var s4 := Step(s, RemoveMessage("1 - Box")).state;
    assert s4.models.Keys == {"0 - Box", "2 - Box"};
    assert |s4.models| == 2;
    assert s4.removed == ["1"];
    var s5 := Step(s4, RemoveMessage("1 - Box")).state;
    assert s5.models.Keys == {"0 - Box", "2 - Box"};
    assert |s5.models| == 2;
    assert s5.removed == ["1", "1"];
    var r6 := Step(s5, AddMessage("Box", White));
    assert r6.broadcast.handle == "1 - Box";
    var s6 := r6.state;
    assert s6.removed == ["1"];
    assert "1 - Box" in s6.models;
    var r7 := Step(s6, AddMessage("Box", White));
    assert r7.broadcast.handle == "1 - Box";
    assert r7.state.models.Keys == s6.models.Keys;
  }

  /** Without the index bound: from ten live models and no freed index (the state ten Adds
      leave), an eleventh Add takes index 10; removing it frees only "1", and the next Add
      reissues the handle of the live model with index 1 when the geometry names agree. */
  lemma TenthIndexCollides(s: State, g: string)
    requires |s.models| == 10 && s.removed == [] && "1" + Separator + g in s.models
    ensures var a1 := Step(s, AddMessage(g, White));
      var a2 := Step(a1.state, RemoveMessage(a1.broadcast.handle));
      && !Admissible(s, AddMessage(g, White))
      && a1.broadcast.handle == "10" + Separator + g
      && a2.state.removed == ["1"]
      && Step(a2.state, AddMessage(g, White)).broadcast.handle == "1" + Separator + g
      && "1" + Separator + g in a2.state.models
  {
    assert NatToString(10) == "10";
    var a1 := Step(s, AddMessage(g, White));
    var h10 := a1.broadcast.handle;
    assert h10 == "10" + Separator + g;
    var h1 := "1" + Separator + g;
    assert h10 != h1 by {
      assert h10[1] == '0';
      assert h1[1] == ' ';
    }
    assert h1 in a1.state.models;
    var a2 := Step(a1.state, RemoveMessage(h10));
    assert h1 in a2.state.models;
    assert |a2.state.models| > 0;
    assert [h10[0]] == "1";
    assert a2.state.removed == ["1"];
  }
}
